=== FILE: README.md ===
# Media splitting and resumable transcription, modelled in Dafny

The repository turns a long recording into a consolidated transcript in two
stages:

1. `src/01-split-audio.py` (`split_media_file`) takes one video or audio file.
   It classifies the file by its lower-cased extension and names a
   `<stem>_segments` directory. It asks a probe for the duration and requests
   `num_segments` equal cuts named `<stem>_partNN<ext>`.
2. `src/02-transcribe-audio.py` (`main`) takes the segment files, or ten dummy
   paths when there are none. It orders them by the number after `part` and
   walks them through a per-segment JSON cache:
   - a decodable cached result is reused;
   - a corrupt one is deleted and the segment is transcribed again;
   - only truthy results are cached and listed.

   It then merges the list into a `"\n\n"`-joined text and a JSON list named
   after the source. The transcription client (`transcribe_audio`) returns a
   synthetic result when the API key is the placeholder or the file does not
   exist.

The Dafny modules follow that structure:

| module | file | contents |
|---|---|---|
| `Base` | base.dfy | `Option` |
| `Ascii` | ascii.dfy | digits, decimal rendering and parsing, `:02d` padding, ASCII lower-casing |
| `Glob` | glob.dfy | `fnmatch` patterns, `glob.escape`, and a two-level `glob.glob` over a directory listing |
| `Paths` | paths.dfy | `os.path.basename`, `os.path.join`, pathlib `stem`/`suffix`, `os.path.splitext` root |
| `Segmenter` | segmenter.dfy | the split plan and the cutting loop |
| `PartNames` | partnames.dfy | `extract_part_number` and `extract_base_name` as explicit scans for the two regular expressions |
| `PartSort` | partsort.dfy | Python's stable `sorted` by part number, as an insertion sort |
| `Transcription` | transcription.dfy | the client: the placeholder branch exactly, the HTTP exchange as an oracle |
| `Orchestrator` | orchestrator.dfy | the cache/transcribe/merge loop, consolidation, dummy inputs and `main` |

The external world enters as parameters:
- the duration probe is an `Option<real>`;
- each ffmpeg cut's success is `cutSucceeds: nat -> bool`;
- the `output` directory is a sequence of `Dir`s, each a sub-directory name with its file names in listing order;
- `main` and its lemmas take the `.mp4` listing as the parameter `discovered`, which stands for the escaped listing `Orchestrator.Discover`; as written the listing never includes `[Internal] OCR Logic_segments` itself, only sibling directories named by one letter of `Internal` followed by ` OCR Logic_segments` (see Findings);
- the transcripts directory is a `Cache` map from segment label to a decodable or corrupt entry;
- the client's environment is a `Service`: whether the key is the placeholder, which paths exist, and the answer to the n-th request.

## Model

| member | source | states |
|---|---|---|
| Segmenter.Classify | src/01-split-audio.py:41-47 | a file is video exactly when its extension is on the video list, audio exactly when it is on the audio list, and unsupported exactly when it is on neither |
| Segmenter.ExtensionListsDisjoint | src/01-split-audio.py:42-43 | no extension is on both whitelists, so the video check taking precedence never hides an audio file |
| Segmenter.FileExt | src/01-split-audio.py:39 | the extension used for classification and naming is empty or a dot followed by non-dot characters, and contains no upper-case letter |
| Segmenter.LowerKeepsExtension | src/01-split-audio.py:39 | lower-casing a pathlib suffix leaves it a suffix (or empty) |
| Segmenter.FileStemAndExt | src/01-split-audio.py:37-39 | a file `stem + ext` in any directory has stem `stem` and extension `ext` lower-cased |
| Paths.SuffixOfStemAndExtension | src/01-split-audio.py:38-39 | a non-empty stem followed by an extension splits back into exactly that stem and suffix |
| Segmenter.SegmentDirNameInjective | src/01-split-audio.py:50 | two files share a segment directory exactly when they have the same stem |
| Segmenter.SegmentNameInjective | src/01-split-audio.py:72 | the cuts of one file receive pairwise different output names |
| Ascii.Pad2 | src/01-split-audio.py:72 | `:02d` yields only digits, exactly two of them below 100, no leading zero when longer than two, and reads back as the number |
| Ascii.Pad2Injective | src/01-split-audio.py:72 | different indices are never padded to the same text |
| Ascii.DecimalRoundTrip | src/02-transcribe-audio.py:83 | `int()` of the decimal rendering of `n` is `n` |
| Segmenter.SliceAt | src/01-split-audio.py:67-69 | cut `j` of `n` runs from `j*d/n` to `(j+1)*d/n`: the `min` with the duration never shortens a cut, and each cut is a non-empty interval inside `[0, d]` |
| Segmenter.SlicesPartition | src/01-split-audio.py:59-69 | for a positive duration, the cuts tile `[0, d]` from 0 to `d` without gap or overlap, each `d/n` seconds long |
| Segmenter.PlannedReportAt | src/01-split-audio.py:66-93 | the `j`-th cut request is slice `j` named with index `j+1`, whatever happened to the other cuts |
| Segmenter.CutSlices | src/01-split-audio.py:66-93 | the loop makes one request per index in order (none for a negative count), each named `<stem>_partNN<ext>` and carrying its own outcome, and for a positive duration the requests partition the file into equal slices |
| Segmenter.SplitMediaFile | src/01-split-audio.py:28-95 | unsupported extension, probe failure (`None` or zero), division by a zero count and a completed split are told apart by exactly the script's conditions in the script's order, and a completed split carries the classified type, the duration and the cut requests above |
| PartNames.DigitRunOfDigits | src/02-transcribe-audio.py:81 | `\d+` is greedy: after a position it takes exactly the maximal run of digits |
| PartNames.FindPart | src/02-transcribe-audio.py:81 | the search finds the leftmost `part<digit>` at or after the start, or reports that there is none |
| PartNames.PartNumber | src/02-transcribe-audio.py:81-84 | a name without `part<digit>` has part number 0, otherwise the number is the value of the digit run after the leftmost match |
| PartNames.ExtractPartNumberOfSegmentName | src/02-transcribe-audio.py:79-84 | for a stem without `part<digit>`, the part number of `<stem>_partNN<ext>` is NN: it inverts the split stage's naming |
| PartNames.SuffixAtUnique | src/02-transcribe-audio.py:90 | the anchored pattern `_part\d+\.[^.]+$` can match at no more than one position |
| PartNames.StripPartSuffix | src/02-transcribe-audio.py:86-90 | the result is a prefix of the name; it is the whole name exactly when the pattern matches nowhere, and otherwise the pattern matches right where the result ends |
| PartNames.ExtractBaseNameOfSegmentName | src/02-transcribe-audio.py:86-90 | `extract_base_name` of `<stem>_partNN<ext>` is `stem`: it inverts the split stage's naming |
| Paths.BaseNameOfJoin | src/02-transcribe-audio.py:97 | the base name of `os.path.join(dir, name)` is `name` for a name without separators |
| Paths.SplitExtRoot | src/02-transcribe-audio.py:136 | the label is a prefix of the file name; when it is shorter, the cut is at the last dot and a non-dot precedes it; when it is the whole name, no dot qualifies |
| Orchestrator.SplitExtRootOfSegmentName | src/02-transcribe-audio.py:135-136 | a segment file's cache label is its name without the extension, `<stem>_partNN` |
| Orchestrator.DummyFiles | src/02-transcribe-audio.py:92-99 | ten paths, the `i`-th being `<segments dir>/[Internal] OCR Logic_part<i+1:02d>.mp4` |
| Orchestrator.DummyFilesNumbered | src/02-transcribe-audio.py:92-99 | the dummy files read back as parts 1 to 10 of the dummy source, labelled `[Internal] OCR Logic_partNN` |
| PartSort.Insert | src/02-transcribe-audio.py:125 | inserting into a sorted list keeps it sorted and adds exactly the new element |
| PartSort.InsertKeepsTies | src/02-transcribe-audio.py:125 | the inserted element goes in front of its equal-key elements, and all other elements keep their relative order |
| PartSort.SortBy | src/02-transcribe-audio.py:125 | `sorted` yields ascending keys, a permutation of its input, and each key's elements in their original order (stability) |
| PartSort.SortedUnique | src/02-transcribe-audio.py:125 | a stable sort has one possible result: two sorted lists with the same elements per key, in the same order, are equal |
| PartSort.SortByOfSorted | src/02-transcribe-audio.py:125 | sorting an already ordered list leaves it unchanged |
| Transcription.DummyPayload | src/02-transcribe-audio.py:50-51 | the synthetic result is truthy and its text names the file's base name |
| Transcription.TranscribeAudio | src/02-transcribe-audio.py:45-77 | with the placeholder key or a missing file the client returns a truthy result naming the file; otherwise it returns the live service's answer to that request, and it returns nothing only after a live request |
| Orchestrator.Step | src/02-transcribe-audio.py:134-169 | one iteration: a decodable cache entry is reused without a call and its text listed; otherwise exactly one call, and a truthy answer of the client is itself cached under the segment label and its `text` listed, while a falsy or missing answer leaves neither a cache entry nor a list entry; other labels are untouched |
| Orchestrator.ProcessAll | src/02-transcribe-audio.py:134-169 | the loop records one status per file and only appends to the result list |
| Orchestrator.FoldCalls | src/02-transcribe-audio.py:139-154 | a run calls the client once for each segment not served from the cache |
| Orchestrator.FoldEntries | src/02-transcribe-audio.py:156-169 | a run appends exactly the entries of the segments that did not fail, in file order, compared with an independent definition |
| Orchestrator.FoldAllHits | src/02-transcribe-audio.py:139-151 | when every segment has a decodable cached result, a run makes no call, keeps the cache, and lists the cached texts in order |
| Orchestrator.FoldKeepsHits | src/02-transcribe-audio.py:139-151 | a decodable cached result is never touched |
| Orchestrator.FoldNeverCorrupts | src/02-transcribe-audio.py:146-163 | a run never makes a cache entry corrupt |
| Orchestrator.FoldHealsCorruptEntries | src/02-transcribe-audio.py:146-163 | after a run no processed segment's cache entry is corrupt: corrupt files are deleted, then rewritten or left absent |
| Orchestrator.FoldCallsWithDistinctKeys | src/02-transcribe-audio.py:139-154 | with distinct labels, the number of calls is the number of segments lacking a decodable cached result before the run |
| Orchestrator.OneCorruptEntryOneCall | src/02-transcribe-audio.py:146-154 | when all segments are cached except one corrupt entry, exactly one segment needs a call |
| Orchestrator.OneCorruptEntryOneCallRun | src/02-transcribe-audio.py:139-154 | a run over segments that are all cached except one corrupt entry makes exactly one call, whatever the labels |
| Orchestrator.AllHitsNoMisses | src/02-transcribe-audio.py:139-151 | a fully cached set of segments needs no call |
| Orchestrator.FoldWithoutFailures | src/02-transcribe-audio.py:134-169 | a run without failures leaves a decodable cached result for every segment and lists exactly those results in order |
| Orchestrator.SecondRunIsIdempotent | src/02-transcribe-audio.py:134-169 | re-running over the cache a failure-free run left behind makes no call, keeps the cache and produces the same list, whatever the service would answer |
| Orchestrator.PlaceholderNeverFails | src/02-transcribe-audio.py:50-51 | with the placeholder key, or when no segment file exists, no segment fails |
| Orchestrator.PlaceholderKeepsEveryFile | src/02-transcribe-audio.py:134-169 | in placeholder mode every file yields one entry, labelled by that file, in order |
| Orchestrator.SurvivorsMatchFiles | src/02-transcribe-audio.py:156-169 | the listed entries line up one to one with the files that did not fail, each labelled by its file |
| Orchestrator.SurvivingFilesKeepOrder | src/02-transcribe-audio.py:125-134 | dropping failed files keeps the files a sorted sub-multiset of the processing order |
| Orchestrator.RenderConcat | src/02-transcribe-audio.py:174 | the joined text of two non-empty lists is their texts joined by a blank line |
| Orchestrator.RenderContainsBlocks | src/02-transcribe-audio.py:174 | every result's `# <segment>` block appears in the combined text |
| Orchestrator.Consolidate | src/02-transcribe-audio.py:171-186 | nothing is written exactly when there are no results; otherwise the JSON list is the result list, the text is its joined rendering, and the files are named `<source>_transcript.txt` / `.json` |
| Glob.Select | src/02-transcribe-audio.py:103 | a directory listing keeps exactly the names the pattern matches, dropping names that start with a dot unless the pattern does |
| Glob.EscapeMatchesOnlyItself | src/02-transcribe-audio.py:103 | an escaped name used as a pattern matches that name and nothing else |
| Glob.EscapeSelectsItself | src/02-transcribe-audio.py:103 | a name that does not start with a dot is kept when listed against its own escape |
| Glob.SelectMp4 | src/02-transcribe-audio.py:103 | `*.mp4` keeps exactly the names ending in `.mp4` that do not start with a dot |
| Glob.ClassPatternMissesItself | src/02-transcribe-audio.py:35 | a name opening with a bracketed class of plain characters, used unescaped as a pattern, does not match itself |
| Glob.GlobOneDirectory | src/02-transcribe-audio.py:103 | a selected sub-directory contributes its selected files, each joined to the directory's path |
| Glob.GlobNoDirectory | src/02-transcribe-audio.py:103 | when no sub-directory is selected, the listing is empty whatever the directories hold |
| Orchestrator.SegmentsDirPatternMissesItself | src/02-transcribe-audio.py:35 | `[Internal] OCR Logic_segments` used as a pattern does not match the directory of that name |
| Orchestrator.UnescapedGlobMissesSegmentsDir | src/02-transcribe-audio.py:103-116 | as written, the listing of the segments directory is empty whatever the directory holds, so `main` processes the ten dummy paths |
| Orchestrator.UnescapedGlobSkipsSegmentsDir | src/02-transcribe-audio.py:103 | as written, the segments directory adds nothing to the listing, wherever it stands among the sub-directories |
| Orchestrator.UnescapedGlobListsSibling | src/02-transcribe-audio.py:103 | as written, a sibling directory named by one letter of `Internal` followed by ` OCR Logic_segments` has all its `.mp4` files listed |
| Glob.ClassPatternMatchesMember | src/02-transcribe-audio.py:35 | an unescaped pattern opening with a class matches the name that puts one class member in place of the bracket expression |
| Glob.GlobConcat | src/02-transcribe-audio.py:103 | listing two runs of sub-directories lists the first run's files, then the second's |
| Orchestrator.DiscoverListsSegmentsDir | src/02-transcribe-audio.py:103 | with the directory escaped, the listing is the segments directory's `.mp4` files that do not start with a dot, in listing order, joined to the directory's path |
| Orchestrator.DiscoverIgnoresOtherDirs | src/02-transcribe-audio.py:103 | with the directory escaped, no other sub-directory of `output` is listed |
| Orchestrator.Main | src/02-transcribe-audio.py:101-186 | the processing order is sorted by part number and a permutation of the inputs (the dummy list when nothing was found), and files with equal part numbers keep their discovery order; the source name is the base name of the first discovered file, before sorting, or the dummy source, and the transcript files are named after it; one status per file; a transcript exactly when some result exists, listing the run's results |
| Orchestrator.MainEntriesFollowOrder | src/02-transcribe-audio.py:124-169 | the consolidated list has one entry per non-failed segment, labelled by its file, in ascending part-number order, and the run made one call per cache miss |
| Orchestrator.MainHealsCache | src/02-transcribe-audio.py:134-169 | after `main`, no processed segment's cached result is corrupt |
| Orchestrator.MainIsIdempotent | src/02-transcribe-audio.py:101-186 | running `main` again after a failure-free run makes no call, keeps the cache and writes the same consolidated transcript |
| Orchestrator.DummyFilesSorted | src/02-transcribe-audio.py:116-125 | sorting the dummy list by part number leaves it in its generated order |
| Orchestrator.PlaceholderDummyRun | src/02-transcribe-audio.py:105-125 | with the placeholder key and no segment files, `main` transcribes the ten dummy parts in order, labels them `[Internal] OCR Logic_part01` to `_part10`, and names the transcript after the dummy source |

## Left out

- Running ffprobe and ffmpeg (src/01-split-audio.py:7-25, 77-93): the probe's answer and each cut's success are parameters. The exact command lines and the `str()` of the times are not modelled.
- Floating-point arithmetic: durations and cut times are Dafny `real`s. Rounding in `duration / num_segments` and `(i + 1) * segment_duration` is not modelled. The exact tiling facts hold for reals; the script's floats can differ in the last bit.
- The interactive `main` of src/01-split-audio.py:98-147 (glob over the vdo directory, `input()`, choosing a file) and all `print` output of both scripts.
- Directory creation (`os.makedirs`), `load_dotenv`, environment lookups, `time.sleep` and the endpoint URL. The placeholder-key test is the `placeholderKey` flag of `Service`.
- The HTTP request of `transcribe_audio` (src/02-transcribe-audio.py:53-77): the answer to the n-th request is an oracle. `None` stands for a non-200 status.
- The JSON byte format: a cached file is a decodable payload or corrupt. A decodable file whose content is not an object (`result.get` would raise) is not modelled. `indent=2` / `ensure_ascii` formatting of the written files is not modelled.
- Orchestrator.Step: `Corrupt` stands only for a cache file whose content makes `json.load` raise `json.JSONDecodeError`, the one exception src/02-transcribe-audio.py:146 catches. Any other read error ends `main` before consolidation, with no transcript written. An example is a file that is not valid UTF-8, for which `json.load` raises `UnicodeDecodeError`. Such errors are not modelled, so the model's self-healing covers only decodable-or-JSON-invalid files.
- Transcription.TranscribeAudio: a transport error raised by `requests.post`, or a 200 reply whose body is not JSON so that `response.json()` raises (src/02-transcribe-audio.py:65-73), ends `main` without a transcript. This is not modelled: the oracle answers every request with a payload or `None`.
- Transcription.TextOf: a `text` key whose value is not a string (for example `null`) is not modelled. The payload's `text` is an optional string.
- `glob.glob` is modelled only as far as src/02-transcribe-audio.py:103 uses it. The parent directory has no magic characters, and both the directory component and the file pattern have some. `**`, patterns without magic characters (an existence check) and symbolic links are not modelled. The file system's listing order is the order of the `Dir` sequence and of its file names.
- Glob.ClassHas: hyphens in a class are read left to right as `x-y` ranges. Python's chunking of unusual hyphen runs such as `a--c` can differ. The pattern in this script has no hyphen in its class.
- `main` takes the listing as the parameter `discovered` rather than computing it, so its lemmas hold for any listing. `Orchestrator.Discover` is the listing the script intends.
- pathlib normalisation (trailing separators, `//`, `.` components): `Path.name` is modelled as `os.path.basename`.
- Unicode: `str.lower()` is modelled on ASCII letters, and `\d` on ASCII digits.
- Orchestrator.MainIsIdempotent: the model does not write the consolidated `<source>_transcript.json` into the cache, although src/02-transcribe-audio.py:183-185 writes it into the transcripts directory that holds the per-segment cache files. If some segment is labelled `<source>_transcript`, the second run reads that list back, and `result.get` (line 145) raises, ending `main`. The idempotence claim therefore holds for the script only when no segment label equals `<source>_transcript`.
- Orchestrator.Step and Orchestrator.ProcessAll take the cache-label function as a parameter. `Main` passes `Orchestrator.SegmentKey`, and the loop lemmas hold for any labelling.
- Orchestrator.FoldCallsWithDistinctKeys: the exact call count requires pairwise distinct labels. With two files sharing a label, the second can hit the first one's freshly written cache entry.
- PartNames.ExtractPartNumberOfSegmentName: the round trip requires a stem without `part<digit>`, because the regular expression takes the leftmost such occurrence. A stem such as `part1` would be read as part 1. The dummy source satisfies the condition.
- Orchestrator.Consolidate: the file names are stated for a source name without `/`. Sources come from base names, which have none.
- Segmenter.SplitMediaFile: the `ZeroDivisionError` for a zero count is an outcome rather than an exception.

## Findings

| source | as written | input that shows it | evidently intended | confidence | as-written member | corrected member |
|---|---|---|---|---|---|---|
| src/02-transcribe-audio.py:103 | `glob.glob(os.path.join(SEGMENTS_DIR, "*.mp4"))`, where `SEGMENTS_DIR` (line 35) ends in `[Internal] OCR Logic_segments` and is not escaped. `[Internal]` is then a class that matches one of `I n t e r a l`. | an `output` directory whose only sub-directory is `[Internal] OCR Logic_segments`, holding `[Internal] OCR Logic_part01.mp4`. The listing is empty, and `main` transcribes the ten dummy paths instead. Only sibling directories such as `I OCR Logic_segments` are listed. | the `.mp4` files of that directory, as with `glob.escape(SEGMENTS_DIR)` | high; not executed | Orchestrator.DiscoverAsWritten, shown by Orchestrator.UnescapedGlobMissesSegmentsDir and Orchestrator.UnescapedGlobSkipsSegmentsDir | Orchestrator.Discover, proved by Orchestrator.DiscoverListsSegmentsDir and Orchestrator.DiscoverIgnoresOtherDirs |

=== FILE: ascii.dfy ===
/** ASCII character classes and the decimal conversions used by segment names:
    Python's `str(n)`, `format(n, '02d')`, `int(digits)` and `str.lower()`,
    restricted to ASCII. */
module Ascii {

  predicate IsDigit(c: char) {
    '0' <= c <= '9'
  }

  predicate AllDigits(s: string) {
    forall i :: 0 <= i < |s| ==> IsDigit(s[i])
  }

  function DigitValue(c: char): (d: nat)
    requires IsDigit(c)
    ensures d < 10
  {
    c as int - '0' as int
  }

  function DigitChar(d: nat): (c: char)
    requires d < 10
    ensures IsDigit(c) && DigitValue(c) == d
  {
    ('0' as int + d) as char
  }

  /** The value `int(s)` gives a non-empty run of ASCII digits; leading zeros are allowed. */
  function DecimalValue(s: string): nat
    requires AllDigits(s)
  {
    if |s| == 0 then 0 else DecimalValue(s[..|s| - 1]) * 10 + DigitValue(s[|s| - 1])
  }

  /** `str(n)` for a non-negative integer: the shortest decimal rendering. */
  function Decimal(n: nat): (r: string)
    ensures AllDigits(r)
    ensures |r| == 1 <==> n < 10
    ensures |r| >= 1
    ensures |r| > 1 ==> r[0] != '0'
  {
    if n < 10 then [DigitChar(n)] else Decimal(n / 10) + [DigitChar(n % 10)]
  }

  /** Reading back a rendered number gives the number. */
  lemma {:induction false} DecimalRoundTrip(n: nat)
    ensures DecimalValue(Decimal(n)) == n
  {
    if n >= 10 {
      var s := Decimal(n);
      assert s[..|s| - 1] == Decimal(n / 10);
      DecimalRoundTrip(n / 10);
    }
  }

  /** `format(n, '02d')`: the decimal rendering, left-padded with zeros to at least two digits. */
  function Pad2(n: nat): (r: string)
    ensures AllDigits(r)
    ensures |r| >= 2
    ensures |r| == 2 <==> n < 100
    ensures DecimalValue(r) == n
    ensures |r| > 2 ==> r[0] != '0'
  {
    if n < 10 then
      var r := ['0', DigitChar(n)];
      assert r[..1] == ['0'];
      assert r[..1][..0] == [];
      assert DecimalValue(r[..1]) == 0;
      r
    else
      DecimalRoundTrip(n);
      DecimalWidth(n);
      Decimal(n)
  }

  /** A number of two digits or more renders with two characters exactly when it is below 100. */
  lemma {:induction false} DecimalWidth(n: nat)
    requires n >= 10
    ensures |Decimal(n)| == 2 <==> n < 100
  {
    if n >= 100 {
      DecimalWidth(n / 10);
    }
  }

  /** Distinct part indices render to distinct padded strings. */
  lemma Pad2Injective(m: nat, n: nat)
    requires Pad2(m) == Pad2(n)
    ensures m == n
  {
  }

  predicate IsUpper(c: char) {
    'A' <= c <= 'Z'
  }

  /** ASCII lower-casing of one character. */
  function LowerChar(c: char): (r: char)
    ensures !IsUpper(r)
    ensures IsUpper(c) ==> r as int == c as int + 32
    ensures !IsUpper(c) ==> r == c
  {
    if IsUpper(c) then (c as int + 32) as char else c
  }

  /** `s.lower()` on an ASCII string. */
  function Lower(s: string): (r: string)
    ensures |r| == |s|
    ensures forall i :: 0 <= i < |r| ==> !IsUpper(r[i])
    ensures forall i :: 0 <= i < |s| && !IsUpper(s[i]) ==> r[i] == s[i]
    ensures forall i :: 0 <= i < |s| && IsUpper(s[i]) ==> r[i] as int == s[i] as int + 32
  {
    seq(|s|, i requires 0 <= i < |s| => LowerChar(s[i]))
  }
}

=== FILE: base.dfy ===
/** Shared value types for the segmentation and transcription pipeline. */
module Base {

  /** An optional value: a probe that may fail, a scan that may find nothing,
      a transcription that may not come back. */
  datatype Option<+T> = None | Some(value: T) {

    /** The carried value, or `default` when there is none. */
    function GetOr(default: T): T {
      match this
      case Some(v) => v
      case None => default
    }
  }
}

=== FILE: glob.dfy ===
/** Shell-style patterns as Python's `fnmatch` and `glob` read them: `*` matches
    any run, `?` any one character, `[...]` one character of a class (`[!...]`
    one outside it), and a `[` without a closing `]` stands for itself. */
module Glob {
  import opened Base
  import opened Paths

  datatype Token = Lit(c: char) | AnyChar | AnyRun | Class(members: string, negated: bool)

  /** The characters `glob.has_magic` looks for and `glob.escape` wraps. */
  predicate IsMagic(c: char) {
    c == '*' || c == '?' || c == '['
  }

  /** Index of the first `]` in `p` at or after `j`. */
  function FindClose(p: string, j: nat): (r: Option<nat>)
    ensures r.Some? ==> j <= r.value < |p| && p[r.value] == ']'
    ensures r.Some? ==> forall k :: j <= k < r.value ==> p[k] != ']'
    ensures r.None? ==> forall k :: j <= k < |p| ==> p[k] != ']'
    decreases |p| - j
  {
    if j >= |p| then None
    else if p[j] == ']' then Some(j)
    else FindClose(p, j + 1)
  }

  /** Where the class opened by `p[0] == '['` closes: at the first `]` after an
      optional `!` and an optional `]` right behind the bracket. */
  function ClassClose(p: string): (r: Option<nat>)
    requires |p| > 0
    ensures r.Some? ==> 1 <= r.value < |p| && p[r.value] == ']'
  {
    var j := if 1 < |p| && p[1] == '!' then 2 else 1;
    FindClose(p, if j < |p| && p[j] == ']' then j + 1 else j)
  }

  /** The tokens `fnmatch.translate` reads in a pattern. */
  function Parse(p: string): seq<Token>
    decreases |p|
  {
    if |p| == 0 then []
    else if p[0] == '*' then [AnyRun] + Parse(p[1..])
    else if p[0] == '?' then [AnyChar] + Parse(p[1..])
    else if p[0] == '[' then
      match ClassClose(p)
      case None => [Lit('[')] + Parse(p[1..])
      case Some(j) =>
        var body := p[1..j];
        (if |body| > 0 && body[0] == '!' then [Class(body[1..], true)] else [Class(body, false)]) + Parse(p[j + 1..])
    else [Lit(p[0])] + Parse(p[1..])
  }

  /** Membership in a class body: `x-y` is a range, any other character itself. */
  function ClassHas(m: string, c: char): bool
    decreases |m|
  {
    if |m| == 0 then false
    else if |m| >= 3 && m[1] == '-' then (m[0] <= c <= m[2]) || ClassHas(m[3..], c)
    else m[0] == c || ClassHas(m[1..], c)
  }

  /** The whole of `s` matches the tokens. */
  function Matches(toks: seq<Token>, s: string): bool
    decreases |toks|, |s|
  {
    if |toks| == 0 then |s| == 0
    else match toks[0]
      case AnyRun => Matches(toks[1..], s) || (|s| > 0 && Matches(toks, s[1..]))
      case AnyChar => |s| > 0 && Matches(toks[1..], s[1..])
      case Lit(c) => |s| > 0 && s[0] == c && Matches(toks[1..], s[1..])
      case Class(m, neg) => |s| > 0 && ClassHas(m, s[0]) != neg && Matches(toks[1..], s[1..])
  }

  /** `fnmatch.fnmatch(name, pattern)` on POSIX, where case is not folded. */
  predicate FnMatch(name: string, pattern: string) {
    Matches(Parse(pattern), name)
  }

  /** `glob.escape`: each magic character is wrapped in brackets. */
  function Escape(s: string): string {
    if |s| == 0 then ""
    else (if IsMagic(s[0]) then "[" + [s[0]] + "]" else [s[0]]) + Escape(s[1..])
  }

  // ---------------------------------------------------------------------------
  // Facts about patterns

  /** A class body without hyphens holds exactly its own characters. */
  lemma {:induction false} ClassHasPlain(m: string, c: char)
    requires '-' !in m
    ensures ClassHas(m, c) <==> c in m
    decreases |m|
  {
    if |m| > 0 {
      assert '-' !in m[1..];
      ClassHasPlain(m[1..], c);
      assert m == [m[0]] + m[1..];
    }
  }

  /** A bracket expression whose body holds no `]` and does not start with `!`
      is one non-negated class token. */
  lemma ParseClass(body: string, rest: string)
    requires |body| > 0 && body[0] != '!' && body[0] != ']' && ']' !in body
    ensures Parse("[" + body + "]" + rest) == [Class(body, false)] + Parse(rest)
  {
    var p := "[" + body + "]" + rest;
    var close := |body| + 1;
    assert p[close] == ']';
    assert forall k :: 1 <= k < close ==> p[k] == body[k - 1];
    assert ClassClose(p) == Some(close);
    assert p[1..close] == body;
    assert p[close + 1..] == rest;
  }

  /** A name that starts with a class of plain characters, used as its own
      pattern, does not match itself: the class holds no `[`. */
  lemma ClassPatternMissesItself(body: string, rest: string)
    requires |body| > 0 && body[0] != '!' && body[0] != ']' && ']' !in body
    requires '[' !in body && '-' !in body
    ensures var p := "[" + body + "]" + rest; !FnMatch(p, p)
  {
    var p := "[" + body + "]" + rest;
    ParseClass(body, rest);
    ClassHasPlain(body, '[');
    assert Parse(p)[0] == Class(body, false);
    assert p[0] == '[';
  }

  /** The same pattern matches a name that puts one member of the class in
      place of the bracket expression. */
  lemma ClassPatternMatchesMember(body: string, rest: string, c: char)
    requires |body| > 0 && body[0] != '!' && body[0] != ']' && ']' !in body && '-' !in body
    requires forall i :: 0 <= i < |rest| ==> !IsMagic(rest[i])
    requires c in body
    ensures FnMatch([c] + rest, "[" + body + "]" + rest)
  {
    ParseClass(body, rest);
    ParseLiteral(rest);
    ClassHasPlain(body, c);
    LiteralsMatch(rest, rest);
    var toks := [Class(body, false)] + Lits(rest);
    assert toks[1..] == Lits(rest);
    assert ([c] + rest)[1..] == rest;
  }

  /** The tokens of a pattern without magic characters are its literal characters. */
  function Lits(s: string): (r: seq<Token>)
    ensures |r| == |s| && forall i :: 0 <= i < |s| ==> r[i] == Lit(s[i])
  {
    seq(|s|, i requires 0 <= i < |s| => Lit(s[i]))
  }

  lemma {:induction false} ParseLiteral(s: string)
    requires forall i :: 0 <= i < |s| ==> !IsMagic(s[i])
    ensures Parse(s) == Lits(s)
    decreases |s|
  {
    if |s| > 0 {
      var tail := s[1..];
      assert forall i :: 0 <= i < |tail| ==> !IsMagic(tail[i]) by {
        assert forall i :: 0 <= i < |tail| ==> tail[i] == s[i + 1];
      }
      ParseLiteral(tail);
      assert Lits(s) == [Lit(s[0])] + Lits(tail);
    }
  }

  /** The tokens `Escape(s)` parses to: a one-character class for each magic
      character and a literal for every other one. */
  function EscapedTokens(s: string): (r: seq<Token>) {
    if |s| == 0 then []
    else (if IsMagic(s[0]) then [Class([s[0]], false)] else [Lit(s[0])]) + EscapedTokens(s[1..])
  }

  lemma {:induction false} ParseEscape(s: string)
    ensures Parse(Escape(s)) == EscapedTokens(s)
    decreases |s|
  {
    if |s| > 0 {
      var rest := Escape(s[1..]);
      ParseEscape(s[1..]);
      if IsMagic(s[0]) {
        assert Escape(s) == "[" + [s[0]] + "]" + rest;
        ParseClass([s[0]], rest);
      } else {
        assert Escape(s) == [s[0]] + rest;
        assert (([s[0]] + rest)[1..]) == rest;
      }
    }
  }

  lemma {:induction false} EscapedTokensMatch(s: string, t: string)
    ensures Matches(EscapedTokens(s), t) <==> t == s
    decreases |s|
  {
    if |s| > 0 {
      var toks := EscapedTokens(s);
      assert toks[1..] == EscapedTokens(s[1..]);
      if |t| > 0 {
        EscapedTokensMatch(s[1..], t[1..]);
        if IsMagic(s[0]) {
          ClassHasPlain([s[0]], t[0]);
        }
        assert t == [t[0]] + t[1..] && s == [s[0]] + s[1..];
      }
    } else {
      assert EscapedTokens(s) == [];
    }
  }

  /** An escaped pattern matches exactly the text it escapes. */
  lemma EscapeMatchesOnlyItself(s: string, name: string)
    ensures FnMatch(name, Escape(s)) <==> name == s
  {
    ParseEscape(s);
    EscapedTokensMatch(s, name);
  }

  /** A name that does not start with a dot is selected by its own escape. */
  lemma EscapeSelectsItself(s: string)
    requires !IsHidden(s)
    ensures Selected(Escape(s), s)
  {
    EscapeMatchesOnlyItself(s, s);
    if |s| > 0 {
      assert Escape(s)[0] == (if IsMagic(s[0]) then '[' else s[0]);
    }
  }

  /** A run wildcard followed by literals matches exactly the names ending in them. */
  lemma {:induction false} RunThenLiterals(l: string, s: string)
    ensures Matches([AnyRun] + Lits(l), s) <==> |s| >= |l| && s[|s| - |l|..] == l
    decreases |s|
  {
    var toks := [AnyRun] + Lits(l);
    assert toks[1..] == Lits(l);
    LiteralsMatch(l, s);
    if |s| > 0 {
      RunThenLiterals(l, s[1..]);
      if |s| > |l| {
        assert s[1..][|s[1..]| - |l|..] == s[|s| - |l|..];
      }
    }
  }

  lemma {:induction false} LiteralsMatch(l: string, s: string)
    ensures Matches(Lits(l), s) <==> s == l
    decreases |l|
  {
    if |l| > 0 {
      assert Lits(l)[1..] == Lits(l[1..]);
      if |s| > 0 {
        LiteralsMatch(l[1..], s[1..]);
        assert s == [s[0]] + s[1..] && l == [l[0]] + l[1..];
      }
    }
  }

  /** `*.mp4` matches exactly the names ending in `.mp4`. */
  lemma Mp4Pattern(name: string)
    ensures FnMatch(name, "*.mp4") <==> |name| >= 4 && name[|name| - 4..] == ".mp4"
  {
    var p := "*.mp4";
    ParseLiteral(p[1..]);
    assert Parse(p) == [AnyRun] + Parse(p[1..]);
    RunThenLiterals(".mp4", name);
  }

  // ---------------------------------------------------------------------------
  // Listing

  /** A sub-directory of the listed parent and the names of the files in it, in
      the order the file system lists them. */
  datatype Dir = Dir(name: string, files: seq<string>)

  /** glob's `_ishidden`. */
  predicate IsHidden(name: string) {
    |name| > 0 && name[0] == '.'
  }

  /** A name glob keeps when listing a directory against a magic pattern: one that
      matches, and does not start with a dot unless the pattern does. */
  predicate Selected(pattern: string, name: string) {
    (IsHidden(pattern) || !IsHidden(name)) && FnMatch(name, pattern)
  }

  /** glob's `_glob1`: the selected names, in listing order. */
  function Select(pattern: string, names: seq<string>): (r: seq<string>)
    ensures |r| <= |names|
    ensures forall x :: x in r <==> x in names && Selected(pattern, x)
  {
    if |names| == 0 then []
    else (if Selected(pattern, names[0]) then [names[0]] else []) + Select(pattern, names[1..])
  }

  /** `os.path.join(dir, name)` for each name. */
  function JoinAll(dir: string, names: seq<string>): (r: seq<string>)
    ensures |r| == |names| && forall i :: 0 <= i < |names| ==> r[i] == PathJoin(dir, names[i])
  {
    seq(|names|, i requires 0 <= i < |names| => PathJoin(dir, names[i]))
  }

  /** `glob.glob(os.path.join(parent, dirPattern, filePattern))` for a parent
      without magic characters and magic directory and file patterns: the files
      selected by `filePattern` in each sub-directory selected by `dirPattern`. */
  function GlobTwoLevels(parent: string, subdirs: seq<Dir>, dirPattern: string, filePattern: string): seq<string> {
    if |subdirs| == 0 then []
    else
      var d := subdirs[0];
      (if Selected(dirPattern, d.name) then JoinAll(PathJoin(parent, d.name), Select(filePattern, d.files)) else [])
      + GlobTwoLevels(parent, subdirs[1..], dirPattern, filePattern)
  }

  /** One selected sub-directory lists its selected files. */
  lemma GlobOneDirectory(parent: string, d: Dir, dirPattern: string, filePattern: string)
    requires Selected(dirPattern, d.name)
    ensures GlobTwoLevels(parent, [d], dirPattern, filePattern)
              == JoinAll(PathJoin(parent, d.name), Select(filePattern, d.files))
  {
  }

  /** `*.mp4` selects the names that end in `.mp4` and do not start with a dot. */
  lemma SelectMp4(names: seq<string>)
    ensures forall f :: f in Select("*.mp4", names) <==>
              f in names && !IsHidden(f) && |f| >= 4 && f[|f| - 4..] == ".mp4"
  {
    assert !IsHidden("*.mp4");
    forall f { Mp4Pattern(f); }
  }

  /** Listing two runs of sub-directories lists the first run, then the second. */
  lemma {:induction false} GlobConcat(parent: string, a: seq<Dir>, b: seq<Dir>, dirPattern: string, filePattern: string)
    ensures GlobTwoLevels(parent, a + b, dirPattern, filePattern)
              == GlobTwoLevels(parent, a, dirPattern, filePattern) + GlobTwoLevels(parent, b, dirPattern, filePattern)
    decreases |a|
  {
    if |a| == 0 {
      assert a + b == b;
    } else {
      assert (a + b)[0] == a[0] && (a + b)[1..] == a[1..] + b;
      GlobConcat(parent, a[1..], b, dirPattern, filePattern);
    }
  }

  /** A directory no sub-directory name is selected by lists nothing. */
  lemma {:induction false} GlobNoDirectory(parent: string, subdirs: seq<Dir>, dirPattern: string, filePattern: string)
    requires forall i :: 0 <= i < |subdirs| ==> !Selected(dirPattern, subdirs[i].name)
    ensures GlobTwoLevels(parent, subdirs, dirPattern, filePattern) == []
    decreases |subdirs|
  {
    if |subdirs| > 0 {
      assert forall i :: 0 <= i < |subdirs[1..]| ==> subdirs[1..][i] == subdirs[i + 1];
      GlobNoDirectory(parent, subdirs[1..], dirPattern, filePattern);
    }
  }
}

=== FILE: orchestrator.dfy ===
/** The resumable transcription loop and merge of `main` in
    src/02-transcribe-audio.py: a fold over the sorted segment files that
    threads the transcript cache, the call counter and the ordered results,
    then the consolidated transcript. */
module Orchestrator {
  import opened Base
  import opened Ascii
  import opened Paths
  import opened Segmenter
  import opened PartNames
  import opened PartSort
  import opened Transcription
  import opened Glob

  /** One item of the consolidated list: `{"segment": ..., "text": ...}`. */
  datatype Entry = Entry(segment: string, text: string)

  /** A cached per-segment JSON file: decodable, or not. */
  datatype CacheEntry = Valid(payload: Payload) | Corrupt

  /** The transcripts directory, keyed by segment label. */
  type Cache = map<string, CacheEntry>

  /** How one segment was resolved in a run: read from the cache, transcribed,
      or failed (and omitted). */
  datatype Status = Cached(text: string) | Done(text: string) | Failed

  datatype State = State(cache: Cache, calls: nat, entries: seq<Entry>, trace: seq<Status>)

  /** A run starts from the cache on disk, no calls and no results. */
  function Start(cache: Cache): State {
    State(cache, 0, [], [])
  }

  /** The segment label: `os.path.splitext(os.path.basename(path))[0]`. */
  function SegmentKey(path: string): string {
    SplitExtRoot(BaseName(path))
  }

  function Lookup(cache: Cache, key: string): Option<CacheEntry> {
    if key in cache then Some(cache[key]) else None
  }

  /** A decodable cached result exists for `key`. */
  predicate IsHit(cache: Cache, key: string) {
    key in cache && cache[key].Valid?
  }

  /** One iteration of the loop: reuse a decodable cached result; otherwise
      delete a corrupt one, call the client once, and cache and record a truthy
      result or record the failure. `keyOf` names a file's cache entry; the
      script uses `SegmentKey`, and the loop's properties hold for any naming. */
  function Step(svc: Service, keyOf: string -> string, st: State, path: string): (r: State)
    ensures |r.trace| == |st.trace| + 1 && r.trace[..|st.trace|] == st.trace
    ensures var key := keyOf(path);
            var s := r.trace[|st.trace|];
            var res := TranscribeAudio(svc, path, st.calls);
            && (s.Cached? <==> IsHit(st.cache, key))
            && (s.Cached? ==> r.cache == st.cache && r.calls == st.calls
                              && s.text == TextOf(st.cache[key].payload))
            && (!s.Cached? ==> r.calls == st.calls + 1)
            && (s.Failed? <==> !IsHit(st.cache, key) && !(res.Some? && IsTruthy(res.value)))
            && (s.Failed? ==> key !in r.cache && r.entries == st.entries)
            && (!s.Failed? ==> r.entries == st.entries + [Entry(key, s.text)]
                               && IsHit(r.cache, key) && TextOf(r.cache[key].payload) == s.text)
            && (s.Done? ==> res.Some? && r.cache[key] == Valid(res.value) && s.text == TextOf(res.value))
    ensures forall k :: k != keyOf(path) ==> Lookup(r.cache, k) == Lookup(st.cache, k)
  {
    var key := keyOf(path);
    if IsHit(st.cache, key) then
      var text := TextOf(st.cache[key].payload);
      State(st.cache, st.calls, st.entries + [Entry(key, text)], st.trace + [Cached(text)])
    else
      var cache := st.cache - {key};
      var result := TranscribeAudio(svc, path, st.calls);
      if result.Some? && IsTruthy(result.value) then
        var text := TextOf(result.value);
        State(cache[key := Valid(result.value)], st.calls + 1, st.entries + [Entry(key, text)], st.trace + [Done(text)])
      else
        State(cache, st.calls + 1, st.entries, st.trace + [Failed])
  }

  /** The loop over the sorted files. */
  function ProcessAll(svc: Service, keyOf: string -> string, st: State, files: seq<string>): (r: State)
    ensures |r.trace| == |st.trace| + |files| && r.trace[..|st.trace|] == st.trace
    ensures |st.entries| <= |r.entries| && r.entries[..|st.entries|] == st.entries
    ensures st.calls <= r.calls
    decreases |files|
  {
    if |files| == 0 then st
    else
      var st1 := Step(svc, keyOf, st, files[0]);
      var r := ProcessAll(svc, keyOf, st1, files[1..]);
      StepExtends(svc, keyOf, st, files[0]);
      PrefixOfPrefix(st.trace, st1.trace, r.trace);
      PrefixOfPrefix(st.entries, st1.entries, r.entries);
      r
  }

  /** One step only appends to the results and never lowers the call count. */
  lemma StepExtends(svc: Service, keyOf: string -> string, st: State, path: string)
    ensures var r := Step(svc, keyOf, st, path);
            && |st.entries| <= |r.entries| && r.entries[..|st.entries|] == st.entries
            && st.calls <= r.calls
  {
  }

  /** A prefix of a prefix is a prefix. */
  lemma PrefixOfPrefix<T>(a: seq<T>, b: seq<T>, c: seq<T>)
    requires |a| <= |b| <= |c| && b[..|a|] == a && c[..|b|] == b
    ensures c[..|a|] == a
  {
    assert c[..|a|] == c[..|b|][..|a|];
  }

  // ---------------------------------------------------------------------------
  // What a run appends

  /** The number of statuses that needed a call to the client. */
  function Misses(ts: seq<Status>): nat {
    if |ts| == 0 then 0 else (if ts[0].Cached? then 0 else 1) + Misses(ts[1..])
  }

  /** The number of failed segments. */
  function Failures(ts: seq<Status>): nat {
    if |ts| == 0 then 0 else (if ts[0].Failed? then 1 else 0) + Failures(ts[1..])
  }

  /** The entry a status contributes to the consolidated list. */
  function Contribution(key: string, s: Status): seq<Entry> {
    if s.Failed? then [] else [Entry(key, s.text)]
  }

  /** The entries of the files that did not fail, in file order: the reference
      for what the loop appends. */
  function Survivors(keyOf: string -> string, files: seq<string>, ts: seq<Status>): seq<Entry>
    requires |files| == |ts|
  {
    if |files| == 0 then []
    else Contribution(keyOf(files[0]), ts[0]) + Survivors(keyOf, files[1..], ts[1..])
  }

  /** The files that did not fail, in file order. */
  function SurvivingFiles(files: seq<string>, ts: seq<Status>): seq<string>
    requires |files| == |ts|
  {
    if |files| == 0 then []
    else (if ts[0].Failed? then [] else [files[0]]) + SurvivingFiles(files[1..], ts[1..])
  }

  /** The statuses of a run over a non-empty list: the first file's, then the rest's. */
  lemma FoldTraceSplit(svc: Service, keyOf: string -> string, st: State, files: seq<string>)
    requires |files| > 0
    ensures var st1 := Step(svc, keyOf, st, files[0]);
            var r := ProcessAll(svc, keyOf, st, files);
            r.trace[|st.trace|..] == [st1.trace[|st.trace|]] + r.trace[|st1.trace|..]
  {
    var st1 := Step(svc, keyOf, st, files[0]);
    var r := ProcessAll(svc, keyOf, st1, files[1..]);
    assert r.trace[|st.trace|..] == r.trace[|st.trace|..|st1.trace|] + r.trace[|st1.trace|..];
    assert r.trace[|st.trace|..|st1.trace|] == st1.trace[|st.trace|..|st1.trace|];
  }

  /** A run makes one call per segment not served from the cache. */
  lemma {:induction false} FoldCalls(svc: Service, keyOf: string -> string, st: State, files: seq<string>)
    ensures var r := ProcessAll(svc, keyOf, st, files);
            r.calls == st.calls + Misses(r.trace[|st.trace|..])
    decreases |files|
  {
    var r := ProcessAll(svc, keyOf, st, files);
    if |files| == 0 {
      assert r.trace[|st.trace|..] == [];
    } else {
      var st1 := Step(svc, keyOf, st, files[0]);
      FoldCalls(svc, keyOf, st1, files[1..]);
      FoldTraceSplit(svc, keyOf, st, files);
      var ts := r.trace[|st.trace|..];
      assert ts[1..] == r.trace[|st1.trace|..];
    }
  }

  lemma AppendThenAppend<T>(a: seq<T>, b: seq<T>, h: seq<T>, rest: seq<T>, r: seq<T>)
    requires b == a + h && r == b + rest
    ensures r == a + (h + rest)
  {
  }

  /** One step of the fold, as far as the results are concerned. */
  lemma FoldEntriesStep(svc: Service, keyOf: string -> string, st: State, files: seq<string>)
    requires |files| > 0
    ensures var st1 := Step(svc, keyOf, st, files[0]);
            var r := ProcessAll(svc, keyOf, st, files);
            && r == ProcessAll(svc, keyOf, st1, files[1..])
            && r.trace[|st.trace|..] == [st1.trace[|st.trace|]] + r.trace[|st1.trace|..]
            && st1.entries == st.entries + Contribution(keyOf(files[0]), st1.trace[|st.trace|])
  {
    FoldTraceSplit(svc, keyOf, st, files);
  }

  lemma SurvivorsCons(keyOf: string -> string, files: seq<string>, s: Status, ts: seq<Status>)
    requires |files| == |ts| + 1
    ensures Survivors(keyOf, files, [s] + ts) == Contribution(keyOf(files[0]), s) + Survivors(keyOf, files[1..], ts)
  {
    assert ([s] + ts)[0] == s && ([s] + ts)[1..] == ts;
  }

  /** A run appends exactly the entries of the segments that did not fail, in order. */
  lemma {:induction false} FoldEntries(svc: Service, keyOf: string -> string, st: State, files: seq<string>)
    ensures var r := ProcessAll(svc, keyOf, st, files);
            var ts := r.trace[|st.trace|..];
            |ts| == |files| && r.entries == st.entries + Survivors(keyOf, files, ts)
    decreases |files|
  {
    var r := ProcessAll(svc, keyOf, st, files);
    if |files| == 0 {
      assert r.trace[|st.trace|..] == [];
    } else {
      var st1 := Step(svc, keyOf, st, files[0]);
      var s0 := st1.trace[|st.trace|];
      var ts1 := r.trace[|st1.trace|..];
      var head := Contribution(keyOf(files[0]), s0);
      var rest := Survivors(keyOf, files[1..], ts1);
      FoldEntriesStep(svc, keyOf, st, files);
      FoldEntries(svc, keyOf, st1, files[1..]);
      SurvivorsCons(keyOf, files, s0, ts1);
      AppendThenAppend(st.entries, st1.entries, head, rest, r.entries);
    }
  }

  /** A decodable cached result is never touched by a run. */
  lemma {:induction false} FoldKeepsHits(svc: Service, keyOf: string -> string, st: State, files: seq<string>, k: string)
    requires IsHit(st.cache, k)
    ensures Lookup(ProcessAll(svc, keyOf, st, files).cache, k) == Lookup(st.cache, k)
    decreases |files|
  {
    if |files| > 0 {
      var st1 := Step(svc, keyOf, st, files[0]);
      assert Lookup(st1.cache, k) == Lookup(st.cache, k);
      FoldKeepsHits(svc, keyOf, st1, files[1..], k);
    }
  }

  /** A run never makes a cache entry corrupt. */
  lemma {:induction false} FoldNeverCorrupts(svc: Service, keyOf: string -> string, st: State, files: seq<string>, k: string)
    requires Lookup(st.cache, k) != Some(Corrupt)
    ensures Lookup(ProcessAll(svc, keyOf, st, files).cache, k) != Some(Corrupt)
    decreases |files|
  {
    if |files| > 0 {
      var st1 := Step(svc, keyOf, st, files[0]);
      assert Lookup(st1.cache, k) != Some(Corrupt);
      FoldNeverCorrupts(svc, keyOf, st1, files[1..], k);
    }
  }

  /** Self-healing: after a run no processed segment's cache entry is corrupt;
      each is a decodable result or absent. */
  lemma {:induction false} FoldHealsCorruptEntries(svc: Service, keyOf: string -> string, st: State, files: seq<string>)
    ensures forall i :: 0 <= i < |files| ==>
              Lookup(ProcessAll(svc, keyOf, st, files).cache, keyOf(files[i])) != Some(Corrupt)
    decreases |files|
  {
    if |files| > 0 {
      var st1 := Step(svc, keyOf, st, files[0]);
      var r := ProcessAll(svc, keyOf, st, files);
      assert Lookup(st1.cache, keyOf(files[0])) != Some(Corrupt);
      FoldNeverCorrupts(svc, keyOf, st1, files[1..], keyOf(files[0]));
      FoldHealsCorruptEntries(svc, keyOf, st1, files[1..]);
      forall i | 1 <= i < |files|
        ensures Lookup(r.cache, keyOf(files[i])) != Some(Corrupt)
      {
        assert files[i] == files[1..][i - 1];
      }
    }
  }

  /** Every file's segment has a decodable cached result. */
  ghost predicate AllHits(keyOf: string -> string, cache: Cache, files: seq<string>) {
    forall i :: 0 <= i < |files| ==> IsHit(cache, keyOf(files[i]))
  }

  /** The entries a run serves entirely from `cache`. */
  function CachedEntries(keyOf: string -> string, cache: Cache, files: seq<string>): seq<Entry>
    requires AllHits(keyOf, cache, files)
  {
    if |files| == 0 then []
    else [Entry(keyOf(files[0]), TextOf(cache[keyOf(files[0])].payload))] + CachedEntries(keyOf, cache, files[1..])
  }

  lemma AllHitsCons(keyOf: string -> string, cache: Cache, files: seq<string>)
    requires |files| > 0 && IsHit(cache, keyOf(files[0])) && AllHits(keyOf, cache, files[1..])
    ensures AllHits(keyOf, cache, files)
  {
    forall i | 0 < i < |files| ensures IsHit(cache, keyOf(files[i])) {
      assert files[i] == files[1..][i - 1];
    }
  }

  /** Cache-hit reuse: when every segment has a decodable cached result, a run
      makes no call, leaves the cache as it was and lists the cached texts in order. */
  lemma {:induction false} FoldAllHits(svc: Service, keyOf: string -> string, st: State, files: seq<string>)
    requires AllHits(keyOf, st.cache, files)
    ensures var r := ProcessAll(svc, keyOf, st, files);
            && r.calls == st.calls
            && r.cache == st.cache
            && r.entries == st.entries + CachedEntries(keyOf, st.cache, files)
    decreases |files|
  {
    if |files| > 0 {
      var st1 := Step(svc, keyOf, st, files[0]);
      assert st1.cache == st.cache;
      assert AllHits(keyOf, st1.cache, files[1..]) by {
        forall i | 0 <= i < |files[1..]| ensures IsHit(st1.cache, keyOf(files[1..][i])) {
          assert files[1..][i] == files[i + 1];
        }
      }
      FoldAllHits(svc, keyOf, st1, files[1..]);
      var head := [Entry(keyOf(files[0]), TextOf(st.cache[keyOf(files[0])].payload))];
      assert st1.entries == st.entries + head;
      AppendThenAppend(st.entries, st1.entries, head, CachedEntries(keyOf, st.cache, files[1..]),
                       ProcessAll(svc, keyOf, st, files).entries);
    }
  }

  /** No status of `ts` is a failure. */
  ghost predicate NoFailures(ts: seq<Status>) {
    forall i :: 0 <= i < |ts| ==> !ts[i].Failed?
  }

  /** A run without failures starts with a step that did not fail, followed by
      a run without failures. */
  lemma NoFailuresStep(svc: Service, keyOf: string -> string, st: State, files: seq<string>)
    requires |files| > 0
    requires NoFailures(ProcessAll(svc, keyOf, st, files).trace[|st.trace|..])
    ensures var st1 := Step(svc, keyOf, st, files[0]);
            var r := ProcessAll(svc, keyOf, st1, files[1..]);
            !st1.trace[|st.trace|].Failed? && NoFailures(r.trace[|st1.trace|..])
  {
    var st1 := Step(svc, keyOf, st, files[0]);
    var r := ProcessAll(svc, keyOf, st, files);
    FoldEntriesStep(svc, keyOf, st, files);
    NoFailuresCons(st1.trace[|st.trace|], r.trace[|st1.trace|..]);
  }

  lemma NoFailuresCons(s: Status, ts: seq<Status>)
    ensures NoFailures([s] + ts) <==> !s.Failed? && NoFailures(ts)
  {
    var all := [s] + ts;
    assert all[0] == s;
    assert forall i :: 0 <= i < |ts| ==> ts[i] == all[i + 1];
    assert forall i :: 0 < i < |all| ==> all[i] == ts[i - 1];
  }

  /** A run without failures leaves a decodable cached result for every segment. */
  lemma {:induction false} FoldWithoutFailuresHits(svc: Service, keyOf: string -> string, st: State, files: seq<string>)
    requires NoFailures(ProcessAll(svc, keyOf, st, files).trace[|st.trace|..])
    ensures AllHits(keyOf, ProcessAll(svc, keyOf, st, files).cache, files)
    decreases |files|
  {
    if |files| > 0 {
      var st1 := Step(svc, keyOf, st, files[0]);
      var r := ProcessAll(svc, keyOf, st1, files[1..]);
      NoFailuresStep(svc, keyOf, st, files);
      FoldWithoutFailuresHits(svc, keyOf, st1, files[1..]);
      FoldKeepsHits(svc, keyOf, st1, files[1..], keyOf(files[0]));
      AllHitsCons(keyOf, r.cache, files);
    }
  }

  /** A run without failures lists exactly the cached results' texts, in order. */
  lemma {:induction false} FoldWithoutFailures(svc: Service, keyOf: string -> string, st: State, files: seq<string>)
    requires NoFailures(ProcessAll(svc, keyOf, st, files).trace[|st.trace|..])
    ensures var r := ProcessAll(svc, keyOf, st, files);
            && AllHits(keyOf, r.cache, files)
            && r.entries == st.entries + CachedEntries(keyOf, r.cache, files)
    decreases |files|
  {
    FoldWithoutFailuresHits(svc, keyOf, st, files);
    if |files| > 0 {
      var st1 := Step(svc, keyOf, st, files[0]);
      var key := keyOf(files[0]);
      var rest := files[1..];
      var r := ProcessAll(svc, keyOf, st1, rest);
      NoFailuresStep(svc, keyOf, st, files);
      FoldWithoutFailures(svc, keyOf, st1, rest);
      FoldKeepsHits(svc, keyOf, st1, rest, key);
      var head := [Entry(key, TextOf(r.cache[key].payload))];
      assert st1.entries == st.entries + head;
      AppendThenAppend(st.entries, st1.entries, head, CachedEntries(keyOf, r.cache, rest), r.entries);
    }
  }

  /** Idempotence: once a run has resolved every segment, running again over the
      same files makes no call, keeps the cache, and yields the same entries. */
  lemma SecondRunIsIdempotent(svc1: Service, svc2: Service, keyOf: string -> string, cache: Cache, files: seq<string>)
    requires NoFailures(ProcessAll(svc1, keyOf, Start(cache), files).trace)
    ensures var r1 := ProcessAll(svc1, keyOf, Start(cache), files);
            var r2 := ProcessAll(svc2, keyOf, Start(r1.cache), files);
            && r2.calls == 0
            && r2.cache == r1.cache
            && r2.entries == r1.entries
  {
    var r1 := ProcessAll(svc1, keyOf, Start(cache), files);
    assert r1.trace[0..] == r1.trace;
    FoldWithoutFailures(svc1, keyOf, Start(cache), files);
    FoldAllHits(svc2, keyOf, Start(r1.cache), files);
  }

  // ---------------------------------------------------------------------------
  // Calls, order and failures

  /** The number of files whose segment has no decodable result in `cache`. */
  function InitialMisses(keyOf: string -> string, cache: Cache, files: seq<string>): nat {
    if |files| == 0 then 0
    else (if IsHit(cache, keyOf(files[0])) then 0 else 1) + InitialMisses(keyOf, cache, files[1..])
  }

  /** No two files share a segment label (files of one directory with one extension). */
  ghost predicate DistinctKeys(keyOf: string -> string, files: seq<string>) {
    forall i, j :: 0 <= i < j < |files| ==> keyOf(files[i]) != keyOf(files[j])
  }

  /** Two caches that agree on the files' labels miss the same files. */
  lemma {:induction false} InitialMissesAgree(keyOf: string -> string, c1: Cache, c2: Cache, files: seq<string>)
    requires forall i :: 0 <= i < |files| ==> Lookup(c1, keyOf(files[i])) == Lookup(c2, keyOf(files[i]))
    ensures InitialMisses(keyOf, c1, files) == InitialMisses(keyOf, c2, files)
    decreases |files|
  {
    if |files| > 0 {
      assert Lookup(c1, keyOf(files[0])) == Lookup(c2, keyOf(files[0]));
      forall i | 0 <= i < |files[1..]|
        ensures Lookup(c1, keyOf(files[1..][i])) == Lookup(c2, keyOf(files[1..][i]))
      {
        assert files[1..][i] == files[i + 1];
      }
      InitialMissesAgree(keyOf, c1, c2, files[1..]);
    }
  }

  /** With distinct labels, a run calls the client exactly once for each segment
      that had no decodable cached result when it started; in particular a corrupt
      entry costs one fresh call. */
  lemma {:induction false} FoldCallsWithDistinctKeys(svc: Service, keyOf: string -> string, st: State, files: seq<string>)
    requires DistinctKeys(keyOf, files)
    ensures ProcessAll(svc, keyOf, st, files).calls == st.calls + InitialMisses(keyOf, st.cache, files)
    decreases |files|
  {
    if |files| > 0 {
      var st1 := Step(svc, keyOf, st, files[0]);
      var rest := files[1..];
      assert DistinctKeys(keyOf, rest) by {
        forall i, j | 0 <= i < j < |rest| ensures keyOf(rest[i]) != keyOf(rest[j]) {
          assert rest[i] == files[i + 1] && rest[j] == files[j + 1];
        }
      }
      forall i | 0 <= i < |rest|
        ensures Lookup(st1.cache, keyOf(rest[i])) == Lookup(st.cache, keyOf(rest[i]))
      {
        assert rest[i] == files[i + 1];
      }
      InitialMissesAgree(keyOf, st1.cache, st.cache, rest);
      FoldCallsWithDistinctKeys(svc, keyOf, st1, rest);
    }
  }

  /** A run over files that all have cached results except the `j`-th, whose
      result is corrupt, calls the client exactly once. */
  lemma {:induction false} OneCorruptEntryOneCall(keyOf: string -> string, cache: Cache, files: seq<string>, j: nat)
    requires j < |files| && Lookup(cache, keyOf(files[j])) == Some(Corrupt)
    requires forall i :: 0 <= i < |files| && i != j ==> IsHit(cache, keyOf(files[i]))
    ensures InitialMisses(keyOf, cache, files) == 1
    decreases |files|
  {
    if j == 0 {
      assert AllHits(keyOf, cache, files[1..]) by {
        forall i | 0 <= i < |files[1..]| ensures IsHit(cache, keyOf(files[1..][i])) {
          assert files[1..][i] == files[i + 1];
        }
      }
      AllHitsNoMisses(keyOf, cache, files[1..]);
    } else {
      forall i | 0 <= i < |files[1..]| && i != j - 1 ensures IsHit(cache, keyOf(files[1..][i])) {
        assert files[1..][i] == files[i + 1];
      }
      OneCorruptEntryOneCall(keyOf, cache, files[1..], j - 1);
    }
  }

  /** A run over files that all have decodable cached results except the `j`-th,
      whose cached result is corrupt, makes exactly one call, whatever the labels. */
  lemma {:induction false} OneCorruptEntryOneCallRun(svc: Service, keyOf: string -> string, st: State, files: seq<string>, j: nat)
    requires j < |files| && Lookup(st.cache, keyOf(files[j])) == Some(Corrupt)
    requires forall i :: 0 <= i < |files| && i != j ==> IsHit(st.cache, keyOf(files[i]))
    ensures ProcessAll(svc, keyOf, st, files).calls == st.calls + 1
    decreases |files|
  {
    var st1 := Step(svc, keyOf, st, files[0]);
    var rest := files[1..];
    if j == 0 {
      assert AllHits(keyOf, st1.cache, rest) by {
        forall i | 0 <= i < |rest| ensures IsHit(st1.cache, keyOf(rest[i])) {
          assert rest[i] == files[i + 1];
          assert IsHit(st.cache, keyOf(files[i + 1]));
        }
      }
      FoldAllHits(svc, keyOf, st1, rest);
    } else {
      assert IsHit(st.cache, keyOf(files[0]));
      assert rest[j - 1] == files[j];
      forall i | 0 <= i < |rest| && i != j - 1 ensures IsHit(st1.cache, keyOf(rest[i])) {
        assert rest[i] == files[i + 1];
      }
      OneCorruptEntryOneCallRun(svc, keyOf, st1, rest, j - 1);
    }
  }

  lemma {:induction false} AllHitsNoMisses(keyOf: string -> string, cache: Cache, files: seq<string>)
    requires AllHits(keyOf, cache, files)
    ensures InitialMisses(keyOf, cache, files) == 0
    decreases |files|
  {
    if |files| > 0 {
      assert AllHits(keyOf, cache, files[1..]) by {
        forall i | 0 <= i < |files[1..]| ensures IsHit(cache, keyOf(files[1..][i])) {
          assert files[1..][i] == files[i + 1];
        }
      }
      AllHitsNoMisses(keyOf, cache, files[1..]);
    }
  }

  /** The appended entries line up with the surviving files: one each, labelled
      by that file, and a failure removes exactly one file. */
  lemma {:induction false} SurvivorsMatchFiles(keyOf: string -> string, files: seq<string>, ts: seq<Status>)
    requires |files| == |ts|
    ensures |Survivors(keyOf, files, ts)| == |SurvivingFiles(files, ts)| == |files| - Failures(ts)
    ensures forall i :: 0 <= i < |SurvivingFiles(files, ts)| ==>
              Survivors(keyOf, files, ts)[i].segment == keyOf(SurvivingFiles(files, ts)[i])
    decreases |files|
  {
    if |files| > 0 {
      SurvivorsMatchFiles(keyOf, files[1..], ts[1..]);
    }
  }

  /** A lower bound on the files' keys bounds the survivors' keys. */
  lemma {:induction false} SurvivingFilesKeyBound(key: string -> nat, files: seq<string>, ts: seq<Status>, lo: nat)
    requires |files| == |ts|
    requires forall i :: 0 <= i < |files| ==> lo <= key(files[i])
    ensures forall j :: 0 <= j < |SurvivingFiles(files, ts)| ==> lo <= key(SurvivingFiles(files, ts)[j])
    decreases |files|
  {
    if |files| > 0 {
      forall i | 0 <= i < |files[1..]| ensures lo <= key(files[1..][i]) {
        assert files[1..][i] == files[i + 1];
      }
      SurvivingFilesKeyBound(key, files[1..], ts[1..], lo);
    }
  }

  /** Dropping failed files keeps the processing order: the survivors are a
      sub-collection of the files, still sorted by any key the files were sorted by. */
  lemma {:induction false} SurvivingFilesKeepOrder(key: string -> nat, files: seq<string>, ts: seq<Status>)
    requires |files| == |ts| && SortedBy(key, files)
    ensures SortedBy(key, SurvivingFiles(files, ts))
    ensures multiset(SurvivingFiles(files, ts)) <= multiset(files)
    decreases |files|
  {
    if |files| > 0 {
      var tail := files[1..];
      SortedTail(key, files);
      SurvivingFilesKeepOrder(key, tail, ts[1..]);
      SurvivingFilesKeyBound(key, tail, ts[1..], key(files[0]));
      var rest := SurvivingFiles(tail, ts[1..]);
      if !ts[0].Failed? {
        SortedCons(key, files[0], rest);
      }
      assert files == [files[0]] + tail;
    }
  }

  /** With the placeholder key, or when no segment file exists on disk, no
      segment fails. */
  lemma {:induction false} PlaceholderNeverFails(svc: Service, keyOf: string -> string, st: State, files: seq<string>)
    requires svc.placeholderKey || forall i :: 0 <= i < |files| ==> !svc.fileExists(files[i])
    ensures var r := ProcessAll(svc, keyOf, st, files); NoFailures(r.trace[|st.trace|..])
    decreases |files|
  {
    if |files| > 0 {
      var st1 := Step(svc, keyOf, st, files[0]);
      var r := ProcessAll(svc, keyOf, st, files);
      FoldEntriesStep(svc, keyOf, st, files);
      forall i | 0 <= i < |files[1..]| ensures !svc.fileExists(files[1..][i]) || svc.placeholderKey {
        assert files[1..][i] == files[i + 1];
      }
      PlaceholderNeverFails(svc, keyOf, st1, files[1..]);
      NoFailuresCons(st1.trace[|st.trace|], r.trace[|st1.trace|..]);
    } else {
      assert ProcessAll(svc, keyOf, st, files).trace[|st.trace|..] == [];
    }
  }

  // ---------------------------------------------------------------------------
  // Consolidation

  /** One block of the combined text: `# <segment>`, a newline, the text. */
  function Block(e: Entry): string {
    "# " + e.segment + "\n" + e.text
  }

  /** `"\n\n".join` of the blocks. */
  function Render(entries: seq<Entry>): string {
    if |entries| == 0 then ""
    else if |entries| == 1 then Block(entries[0])
    else Block(entries[0]) + "\n\n" + Render(entries[1..])
  }

  /** Joining is compositional: the text of two non-empty lists is their texts
      separated by one blank line. */
  lemma {:induction false} RenderConcat(a: seq<Entry>, b: seq<Entry>)
    requires |a| > 0 && |b| > 0
    ensures Render(a + b) == Render(a) + "\n\n" + Render(b)
    decreases |a|
  {
    if |a| == 1 {
      assert (a + b)[1..] == b;
    } else {
      RenderConcat(a[1..], b);
      assert (a + b)[1..] == a[1..] + b;
    }
  }

  /** Each result's block appears in the combined text. */
  lemma {:induction false} RenderContainsBlocks(entries: seq<Entry>, i: nat)
    requires i < |entries|
    ensures Contains(Render(entries), Block(entries[i]))
    decreases |entries|
  {
    if i == 0 {
      RenderStartsWithFirstBlock(entries);
      assert OccursAt(Render(entries), Block(entries[0]), 0);
    } else {
      RenderContainsBlocks(entries[1..], i - 1);
      var k: nat :| OccursAt(Render(entries[1..]), Block(entries[i]), k);
      var a := Block(entries[0]) + "\n\n";
      assert Render(entries) == a + Render(entries[1..]);
      OccursAfter(a, Render(entries[1..]), Block(entries[i]), k);
      assert entries[1..][i - 1] == entries[i];
    }
  }

  lemma RenderStartsWithFirstBlock(entries: seq<Entry>)
    requires |entries| > 0
    ensures |Block(entries[0])| <= |Render(entries)|
    ensures Render(entries)[..|Block(entries[0])|] == Block(entries[0])
  {
    if |entries| > 1 {
      OccursAtStart(Block(entries[0]), "\n\n" + Render(entries[1..]));
    }
  }

  lemma OccursAtStart(a: string, b: string)
    ensures OccursAt(a + b, a, 0)
  {
    assert (a + b)[..|a|] == a;
  }

  lemma OccursAfter(a: string, b: string, sub: string, k: nat)
    requires OccursAt(b, sub, k)
    ensures OccursAt(a + b, sub, |a| + k)
  {
    assert (a + b)[|a| + k..|a| + k + |sub|] == b[k..k + |sub|];
  }

  /** The two consolidated files: their paths, the combined text, and the list. */
  datatype Transcript = Transcript(textFile: string, jsonFile: string, text: string, items: seq<Entry>)

  /** The consolidation step: nothing is written when there are no results. */
  function Consolidate(transcriptsDir: string, source: string, entries: seq<Entry>): (r: Option<Transcript>)
    ensures r.None? <==> |entries| == 0
    ensures r.Some? ==> r.value.items == entries && r.value.text == Render(entries)
    ensures r.Some? && '/' !in source ==>
              BaseName(r.value.textFile) == source + "_transcript.txt"
              && BaseName(r.value.jsonFile) == source + "_transcript.json"
  {
    if |entries| == 0 then None
    else
      var textName := source + "_transcript.txt";
      var jsonName := source + "_transcript.json";
      assert '/' !in source ==>
               BaseName(PathJoin(transcriptsDir, textName)) == textName
               && BaseName(PathJoin(transcriptsDir, jsonName)) == jsonName by {
        if '/' !in source {
          assert '/' !in "_transcript.txt" && '/' !in "_transcript.json";
          BaseNameOfJoin(transcriptsDir, textName);
          BaseNameOfJoin(transcriptsDir, jsonName);
        }
      }
      Some(Transcript(PathJoin(transcriptsDir, textName), PathJoin(transcriptsDir, jsonName), Render(entries), entries))
  }

  // ---------------------------------------------------------------------------
  // Dummy inputs

  const DummySource: string := "[Internal] OCR Logic"

  /** The `i`-th dummy path (0-based): part `i + 1` of the dummy source. */
  function DummyFile(segmentsDir: string, i: nat): string {
    PathJoin(segmentsDir, SegmentName(DummySource, i + 1, ".mp4"))
  }

  /** `create_dummy_files`: ten `.mp4` segment paths numbered 1 to 10 in the
      segments directory. */
  function DummyFiles(segmentsDir: string): (r: seq<string>)
    ensures |r| == 10
    ensures forall i :: 0 <= i < 10 ==> r[i] == DummyFile(segmentsDir, i)
  {
    seq(10, i requires 0 <= i < 10 => DummyFile(segmentsDir, i))
  }

  lemma DummySourceHasNoPartNumber()
    ensures NoPartNumber(DummySource) && '/' !in DummySource
  {
    assert forall i :: 0 <= i < |DummySource| ==> DummySource[i] != 'p' && DummySource[i] != '/';
  }

  /** The label `os.path.splitext` gives a segment name: the name without its extension. */
  lemma SplitExtRootOfSegmentName(stem: string, index: nat, ext: string)
    requires IsExtension(ext)
    ensures SplitExtRoot(SegmentName(stem, index, ext)) == stem + "_part" + Pad2(index)
  {
    var prefix := stem + "_part" + Pad2(index);
    var name := prefix + ext;
    assert SegmentName(stem, index, ext) == name;
    var d := |prefix|;
    var r := SplitExtRoot(name);
    NoDotAfterExtension(prefix, ext);
    assert name[d] == '.';
    assert HasNonDotBefore(name, d) by {
      assert name[d - 1] == Pad2(index)[|Pad2(index)| - 1];
      assert IsDigit(name[d - 1]);
    }
    assert '.' !in name[d + 1..] by {
      var tail := name[d + 1..];
      forall i | 0 <= i < |tail| ensures tail[i] != '.' {
        assert tail[i] == name[d + 1 + i];
      }
    }
    assert r != name;
    assert |r| <= d by {
      assert NoDotAfter(name, d);
    }
    assert |r| >= d by {
      assert forall j :: |r| < j < |name| ==> name[|r| + 1..][j - |r| - 1] == name[j];
    }
    assert name[..d] == prefix;
  }

  /** A dummy file reads back as part `i + 1` of the dummy source, with the
      label `<source>_part<NN>`. */
  lemma DummyFileNumbered(segmentsDir: string, i: nat)
    ensures ExtractPartNumber(DummyFile(segmentsDir, i)) == i + 1
    ensures ExtractBaseName(DummyFile(segmentsDir, i)) == DummySource
    ensures SegmentKey(DummyFile(segmentsDir, i)) == DummySource + "_part" + Pad2(i + 1)
  {
    var name := SegmentName(DummySource, i + 1, ".mp4");
    DummySourceHasNoPartNumber();
    assert '/' !in ".mp4" && IsExtension(".mp4");
    SegmentNameHasNoSeparator(DummySource, i + 1, ".mp4");
    BaseNameOfJoin(segmentsDir, name);
    PartNumberOfSegmentName(DummySource, i + 1, ".mp4");
    StripPartSuffixOfSegmentName(DummySource, i + 1, ".mp4");
    SplitExtRootOfSegmentName(DummySource, i + 1, ".mp4");
  }

  /** The dummy files read back as parts 1 to 10 of the dummy source, with the
      labels `<source>_part01` to `<source>_part10`. */
  lemma DummyFilesNumbered(segmentsDir: string)
    ensures forall i :: 0 <= i < 10 ==>
              && ExtractPartNumber(DummyFiles(segmentsDir)[i]) == i + 1
              && ExtractBaseName(DummyFiles(segmentsDir)[i]) == DummySource
              && SegmentKey(DummyFiles(segmentsDir)[i]) == DummySource + "_part" + Pad2(i + 1)
  {
    forall i | 0 <= i < 10
      ensures && ExtractPartNumber(DummyFiles(segmentsDir)[i]) == i + 1
              && ExtractBaseName(DummyFiles(segmentsDir)[i]) == DummySource
              && SegmentKey(DummyFiles(segmentsDir)[i]) == DummySource + "_part" + Pad2(i + 1)
    {
      DummyFileNumbered(segmentsDir, i);
    }
  }

  // ---------------------------------------------------------------------------
  // Discovery

  /** The last component of `SEGMENTS_DIR`: the split stage's directory for the
      dummy source, `[Internal] OCR Logic_segments`. */
  const SegmentsDirName: string := SegmentDirName(DummySource)

  /** The listing `main` intends: the `.mp4` files of the segments directory
      under `outputDir`, as `glob` gives them once the directory is escaped. */
  function Discover(outputDir: string, subdirs: seq<Dir>): seq<string> {
    GlobTwoLevels(outputDir, subdirs, Escape(SegmentsDirName), "*.mp4")
  }

  /** The listing as the script writes it: the directory name goes into the
      pattern unescaped, so its `[Internal]` reads as a one-character class. */
  function DiscoverAsWritten(outputDir: string, subdirs: seq<Dir>): seq<string> {
    GlobTwoLevels(outputDir, subdirs, SegmentsDirName, "*.mp4")
  }

  /** The unescaped directory pattern does not match the directory's own name:
      its first character `[` is not one of `Internal`. */
  lemma SegmentsDirPatternMissesItself()
    ensures !FnMatch(SegmentsDirName, SegmentsDirName)
  {
    var rest := " OCR Logic_segments";
    assert SegmentsDirName == "[" + "Internal" + "]" + rest;
    ClassPatternMissesItself("Internal", rest);
  }

  /** As written, the segments directory is never listed, whatever it holds, so
      `main` always transcribes the ten dummy files. */
  lemma UnescapedGlobMissesSegmentsDir(svc: Service, outputDir: string, files: seq<string>, cache: Cache, transcriptsDir: string)
    ensures DiscoverAsWritten(outputDir, [Dir(SegmentsDirName, files)]) == []
    ensures var segmentsDir := PathJoin(outputDir, SegmentsDirName);
            Main(svc, DiscoverAsWritten(outputDir, [Dir(SegmentsDirName, files)]), cache, segmentsDir, transcriptsDir).order
              == DummyFiles(segmentsDir)
  {
    SegmentsDirPatternMissesItself();
    GlobNoDirectory(outputDir, [Dir(SegmentsDirName, files)], SegmentsDirName, "*.mp4");
    DummyFilesSorted(PathJoin(outputDir, SegmentsDirName));
  }

  /** As written, the segments directory contributes nothing, wherever it
      stands among the sub-directories of `output`. */
  lemma UnescapedGlobSkipsSegmentsDir(outputDir: string, before: seq<Dir>, files: seq<string>, after: seq<Dir>)
    ensures DiscoverAsWritten(outputDir, before + [Dir(SegmentsDirName, files)] + after)
              == DiscoverAsWritten(outputDir, before + after)
  {
    var seg := [Dir(SegmentsDirName, files)];
    SegmentsDirPatternMissesItself();
    GlobNoDirectory(outputDir, seg, SegmentsDirName, "*.mp4");
    GlobConcat(outputDir, before + seg, after, SegmentsDirName, "*.mp4");
    GlobConcat(outputDir, before, seg, SegmentsDirName, "*.mp4");
    GlobConcat(outputDir, before, after, SegmentsDirName, "*.mp4");
  }

  /** As written, a sibling directory named by one letter of `Internal` followed
      by ` OCR Logic_segments` is listed in full. */
  lemma UnescapedGlobListsSibling(outputDir: string, c: char, files: seq<string>)
    requires c in "Internal"
    ensures var name := [c] + " OCR Logic_segments";
            DiscoverAsWritten(outputDir, [Dir(name, files)]) == JoinAll(PathJoin(outputDir, name), Select("*.mp4", files))
  {
    var rest := " OCR Logic_segments";
    assert SegmentsDirName == "[" + "Internal" + "]" + rest;
    assert forall i :: 0 <= i < |rest| ==> !IsMagic(rest[i]);
    ClassPatternMatchesMember("Internal", rest, c);
    assert !IsHidden([c] + rest);
    GlobOneDirectory(outputDir, Dir([c] + rest, files), SegmentsDirName, "*.mp4");
  }

  /** The escaped listing holds the segments directory's files whose names end
      in `.mp4` and do not start with a dot, in listing order. */
  lemma DiscoverListsSegmentsDir(outputDir: string, files: seq<string>)
    ensures Discover(outputDir, [Dir(SegmentsDirName, files)])
              == JoinAll(PathJoin(outputDir, SegmentsDirName), Select("*.mp4", files))
    ensures forall f :: f in Select("*.mp4", files) <==>
              f in files && !IsHidden(f) && |f| >= 4 && f[|f| - 4..] == ".mp4"
  {
    assert SegmentsDirName[0] == '[';
    EscapeSelectsItself(SegmentsDirName);
    GlobOneDirectory(outputDir, Dir(SegmentsDirName, files), Escape(SegmentsDirName), "*.mp4");
    SelectMp4(files);
  }

  /** The escaped listing reads no other directory. */
  lemma DiscoverIgnoresOtherDirs(outputDir: string, subdirs: seq<Dir>)
    requires forall i :: 0 <= i < |subdirs| ==> subdirs[i].name != SegmentsDirName
    ensures Discover(outputDir, subdirs) == []
  {
    forall i | 0 <= i < |subdirs| ensures !Selected(Escape(SegmentsDirName), subdirs[i].name) {
      EscapeMatchesOnlyItself(SegmentsDirName, subdirs[i].name);
    }
    GlobNoDirectory(outputDir, subdirs, Escape(SegmentsDirName), "*.mp4");
  }

  // ---------------------------------------------------------------------------
  // main

  /** The files to transcribe: the discovered ones, or the dummy list when
      none were found. */
  function Inputs(discovered: seq<string>, segmentsDir: string): seq<string> {
    if |discovered| == 0 then DummyFiles(segmentsDir) else discovered
  }

  /** The source name: taken from the first discovered file, or the dummy one. */
  function SourceName(discovered: seq<string>): string {
    if |discovered| == 0 then DummySource else ExtractBaseName(discovered[0])
  }

  /** The outcome of one invocation of the transcription stage. */
  datatype Run = Run(source: string, order: seq<string>, final: State, transcript: Option<Transcript>)

  /** `main`: choose the inputs, sort them by part number, run the cached
      transcription loop from the cache on disk, and consolidate the results.
      `discovered` stands for the intended listing of the segments directory,
      `Discover`. The listing as written, `DiscoverAsWritten`, never includes
      that directory itself; it includes only sibling directories named by one
      letter of `Internal` followed by ` OCR Logic_segments`. */
  function Main(svc: Service, discovered: seq<string>, cache: Cache, segmentsDir: string, transcriptsDir: string): (r: Run)
    ensures SortedBy(ExtractPartNumber, r.order)
    ensures multiset(r.order) == multiset(Inputs(discovered, segmentsDir))
    ensures forall k :: WithKey(ExtractPartNumber, r.order, k) == WithKey(ExtractPartNumber, Inputs(discovered, segmentsDir), k)
    ensures r.source == if |discovered| == 0 then DummySource else ExtractBaseName(discovered[0])
    ensures r.transcript.Some? ==>
              BaseName(r.transcript.value.textFile) == r.source + "_transcript.txt"
              && BaseName(r.transcript.value.jsonFile) == r.source + "_transcript.json"
    ensures |r.final.trace| == |r.order|
    ensures r.transcript.None? <==> |r.final.entries| == 0
    ensures r.transcript.Some? ==> r.transcript.value.items == r.final.entries
  {
    var source := SourceName(discovered);
    assert '/' !in source by {
      if |discovered| == 0 {
        DummySourceHasNoPartNumber();
      }
    }
    var order := SortByPart(Inputs(discovered, segmentsDir));
    var final := ProcessAll(svc, SegmentKey, Start(cache), order);
    Run(source, order, final, Consolidate(transcriptsDir, source, final.entries))
  }

  /** No failure means every file survives. */
  lemma {:induction false} SurvivingFilesWithoutFailures(files: seq<string>, ts: seq<Status>)
    requires |files| == |ts| && NoFailures(ts)
    ensures SurvivingFiles(files, ts) == files
    decreases |files|
  {
    if |files| > 0 {
      assert NoFailures(ts[1..]) by {
        forall i | 0 <= i < |ts[1..]| ensures !ts[1..][i].Failed? {
          assert ts[1..][i] == ts[i + 1];
        }
      }
      SurvivingFilesWithoutFailures(files[1..], ts[1..]);
      assert files == [files[0]] + files[1..];
    }
  }

  /** The results of a run from the cache on disk over files sorted by `key`:
      one call per segment not served from the cache, one entry per segment
      that did not fail, labelled by its file, still in `key` order. */
  lemma FoldSummary(svc: Service, keyOf: string -> string, key: string -> nat, cache: Cache, files: seq<string>)
    requires SortedBy(key, files)
    ensures var r := ProcessAll(svc, keyOf, Start(cache), files);
            var kept := SurvivingFiles(files, r.trace);
            && r.calls == Misses(r.trace)
            && r.entries == Survivors(keyOf, files, r.trace)
            && |r.entries| == |kept| == |files| - Failures(r.trace)
            && (forall i :: 0 <= i < |kept| ==> r.entries[i].segment == keyOf(kept[i]))
            && SortedBy(key, kept)
  {
    var st := Start(cache);
    var r := ProcessAll(svc, keyOf, st, files);
    assert r.trace[|st.trace|..] == r.trace;
    FoldCalls(svc, keyOf, st, files);
    FoldEntries(svc, keyOf, st, files);
    SurvivorsMatchFiles(keyOf, files, r.trace);
    SurvivingFilesKeepOrder(key, files, r.trace);
  }

  /** The consolidated list of a run: one call per segment not served from the
      cache, one entry per segment that did not fail, labelled by its file, in
      ascending part-number order. */
  lemma MainEntriesFollowOrder(svc: Service, discovered: seq<string>, cache: Cache, segmentsDir: string, transcriptsDir: string)
    ensures var r := Main(svc, discovered, cache, segmentsDir, transcriptsDir);
            var kept := SurvivingFiles(r.order, r.final.trace);
            && r.final.calls == Misses(r.final.trace)
            && r.final.entries == Survivors(SegmentKey, r.order, r.final.trace)
            && |r.final.entries| == |kept| == |r.order| - Failures(r.final.trace)
            && (forall i :: 0 <= i < |kept| ==> r.final.entries[i].segment == SegmentKey(kept[i]))
            && SortedBy(ExtractPartNumber, kept)
  {
    var r := Main(svc, discovered, cache, segmentsDir, transcriptsDir);
    assert r.final == ProcessAll(svc, SegmentKey, Start(cache), r.order);
    FoldSummary(svc, SegmentKey, ExtractPartNumber, cache, r.order);
  }

  /** After a run, no processed segment's cached result is corrupt. */
  lemma MainHealsCache(svc: Service, discovered: seq<string>, cache: Cache, segmentsDir: string, transcriptsDir: string)
    ensures var r := Main(svc, discovered, cache, segmentsDir, transcriptsDir);
            forall i :: 0 <= i < |r.order| ==> Lookup(r.final.cache, SegmentKey(r.order[i])) != Some(Corrupt)
  {
    var r := Main(svc, discovered, cache, segmentsDir, transcriptsDir);
    assert r.final == ProcessAll(svc, SegmentKey, Start(cache), r.order);
    FoldHealsCorruptEntries(svc, SegmentKey, Start(cache), r.order);
  }

  /** Re-running after a run without failures calls nothing and writes the same
      consolidated transcript, whatever the service would answer. */
  lemma MainIsIdempotent(svc1: Service, svc2: Service, discovered: seq<string>, cache: Cache, segmentsDir: string, transcriptsDir: string)
    requires NoFailures(Main(svc1, discovered, cache, segmentsDir, transcriptsDir).final.trace)
    ensures var r1 := Main(svc1, discovered, cache, segmentsDir, transcriptsDir);
            var r2 := Main(svc2, discovered, r1.final.cache, segmentsDir, transcriptsDir);
            && r2.final.calls == 0
            && r2.final.cache == r1.final.cache
            && r2.transcript == r1.transcript
  {
    var r1 := Main(svc1, discovered, cache, segmentsDir, transcriptsDir);
    assert r1.final == ProcessAll(svc1, SegmentKey, Start(cache), r1.order);
    SecondRunIsIdempotent(svc1, svc2, SegmentKey, cache, r1.order);
  }

  /** The dummy files are already in part-number order. */
  lemma DummyFilesSorted(segmentsDir: string)
    ensures SortByPart(DummyFiles(segmentsDir)) == DummyFiles(segmentsDir)
  {
    var files := DummyFiles(segmentsDir);
    DummyFilesNumbered(segmentsDir);
    assert SortedBy(ExtractPartNumber, files);
    SortByOfSorted(ExtractPartNumber, files);
  }

  /** In placeholder mode every file yields one entry, labelled by that file, in order. */
  lemma PlaceholderKeepsEveryFile(svc: Service, keyOf: string -> string, cache: Cache, files: seq<string>)
    requires svc.placeholderKey
    ensures var r := ProcessAll(svc, keyOf, Start(cache), files);
            && |r.entries| == |files|
            && forall i :: 0 <= i < |files| ==> r.entries[i].segment == keyOf(files[i])
  {
    var st := Start(cache);
    var r := ProcessAll(svc, keyOf, st, files);
    assert r.trace[|st.trace|..] == r.trace;
    PlaceholderNeverFails(svc, keyOf, st, files);
    FoldEntries(svc, keyOf, st, files);
    SurvivorsMatchFiles(keyOf, files, r.trace);
    SurvivingFilesWithoutFailures(files, r.trace);
  }

  /** With the placeholder key and an empty segments directory, the run
      transcribes the ten dummy parts in order and names the consolidated files
      after the dummy source. */
  lemma PlaceholderDummyRun(svc: Service, cache: Cache, segmentsDir: string, transcriptsDir: string)
    requires svc.placeholderKey
    ensures var r := Main(svc, [], cache, segmentsDir, transcriptsDir);
            && r.source == DummySource
            && r.order == DummyFiles(segmentsDir)
            && r.transcript.Some?
            && |r.transcript.value.items| == 10
            && (forall i :: 0 <= i < 10 ==> r.transcript.value.items[i].segment == DummySource + "_part" + Pad2(i + 1))
            && BaseName(r.transcript.value.textFile) == DummySource + "_transcript.txt"
  {
    var files := DummyFiles(segmentsDir);
    DummyFilesSorted(segmentsDir);
    DummyFilesNumbered(segmentsDir);
    DummySourceHasNoPartNumber();
    PlaceholderKeepsEveryFile(svc, SegmentKey, cache, files);
    var r := Main(svc, [], cache, segmentsDir, transcriptsDir);
    assert r.order == files;
    assert r.final == ProcessAll(svc, SegmentKey, Start(cache), files);
  }
}

=== FILE: partnames.dfy ===
/** The two name parsers of the transcription stage, written as explicit scans
    over ASCII strings (src/02-transcribe-audio.py, `extract_part_number` and
    `extract_base_name`), and their round trips with the segment naming of the
    split stage. */
module PartNames {
  import opened Base
  import opened Ascii
  import opened Paths
  import opened Segmenter

  /** Length of the run of ASCII digits that starts at index `k`: the greedy `\d+`. */
  function DigitRun(s: string, k: nat): (n: nat)
    requires k <= |s|
    ensures k + n <= |s|
    ensures AllDigits(s[k..k + n])
    ensures k + n == |s| || !IsDigit(s[k + n])
    decreases |s| - k
  {
    if k == |s| || !IsDigit(s[k]) then 0
    else
      var n := 1 + DigitRun(s, k + 1);
      assert s[k..k + n] == [s[k]] + s[k + 1..k + n];
      n
  }

  /** A run of digits followed by a non-digit (or the end) is exactly the greedy run. */
  lemma {:induction false} DigitRunOfDigits(s: string, k: nat, ds: string)
    requires k + |ds| <= |s| && s[k..k + |ds|] == ds && AllDigits(ds)
    requires k + |ds| == |s| || !IsDigit(s[k + |ds|])
    ensures DigitRun(s, k) == |ds|
    decreases |ds|
  {
    if |ds| > 0 {
      assert s[k] == ds[0];
      assert s[k + 1..k + 1 + |ds[1..]|] == ds[1..];
      DigitRunOfDigits(s, k + 1, ds[1..]);
    }
  }

  // ---------------------------------------------------------------------------
  // extract_part_number: re.search(r'part(\d+)', basename)

  /** The pattern `part\d` starts at index `j`. */
  predicate PartAt(s: string, j: nat) {
    j + 4 < |s| && s[j] == 'p' && s[j + 1] == 'a' && s[j + 2] == 'r' && s[j + 3] == 't' && IsDigit(s[j + 4])
  }

  /** The leftmost index at or after `from` where `part\d` starts. */
  function FindPart(s: string, from: nat): (r: Option<nat>)
    ensures r.Some? ==> from <= r.value && PartAt(s, r.value)
    ensures r.Some? ==> forall k: nat :: from <= k < r.value ==> !PartAt(s, k)
    ensures r.None? ==> forall k: nat :: from <= k ==> !PartAt(s, k)
    decreases |s| - from
  {
    if from + 4 >= |s| then None
    else if PartAt(s, from) then Some(from)
    else FindPart(s, from + 1)
  }

  /** `part\d` starts at `j` and nowhere before it: where `re.search` matches. */
  ghost predicate LeftmostPartAt(s: string, j: nat) {
    PartAt(s, j) && forall k: nat :: k < j ==> !PartAt(s, k)
  }

  /** The value of the greedy digit run that starts at `k`. */
  function RunValue(s: string, k: nat): nat
    requires k <= |s|
  {
    DecimalValue(s[k..k + DigitRun(s, k)])
  }

  /** The part number of a base name: the value of the whole digit run after
      the leftmost `part` that is followed by a digit, or 0 when there is none. */
  function PartNumber(name: string): (r: nat)
    ensures (forall k: nat :: !PartAt(name, k)) ==> r == 0
    ensures forall j: nat :: LeftmostPartAt(name, j) ==> r == RunValue(name, j + 4)
  {
    var found := FindPart(name, 0);
    if found.None? then
      0
    else
      var j := found.value;
      assert forall i: nat :: LeftmostPartAt(name, i) ==> i == j;
      RunValue(name, j + 4)
  }

  /** `extract_part_number`: the part number of the path's base name. */
  function ExtractPartNumber(path: string): nat {
    PartNumber(BaseName(path))
  }

  /** True when no `part` in `s` is directly followed by a digit. */
  ghost predicate NoPartNumber(s: string) {
    forall j: nat :: !PartAt(s, j)
  }

  /** `part\d` cannot start inside a stem free of it and run into a following `_`. */
  lemma NoPartBefore(stem: string, tail: string, j: nat)
    requires NoPartNumber(stem)
    requires |tail| > 0 && tail[0] == '_'
    requires j <= |stem|
    ensures !PartAt(stem + tail, j)
  {
    var s := stem + tail;
    assert s[|stem|] == '_';
    if j + 4 < |stem| {
      assert !PartAt(stem, j);
      assert s[j] == stem[j] && s[j + 1] == stem[j + 1] && s[j + 2] == stem[j + 2];
      assert s[j + 3] == stem[j + 3] && s[j + 4] == stem[j + 4];
    }
  }

  /** A segment name holds no separator when its stem and extension hold none. */
  lemma SegmentNameHasNoSeparator(stem: string, index: nat, ext: string)
    requires '/' !in stem && '/' !in ext
    ensures '/' !in SegmentName(stem, index, ext)
    ensures BaseName(SegmentName(stem, index, ext)) == SegmentName(stem, index, ext)
  {
    var p := Pad2(index);
    assert '/' !in p by {
      forall i | 0 <= i < |p| ensures p[i] != '/' {
        assert IsDigit(p[i]);
      }
    }
    var name := SegmentName(stem, index, ext);
    assert name == stem + "_part" + p + ext;
    BaseNameAfterSeparator("", name);
    assert "" + name == name;
  }

  /** The part number of a segment name is the index it was built with, provided
      the stem holds no `part<digit>` of its own and the extension does not start
      with a digit. */
  lemma PartNumberOfSegmentName(stem: string, index: nat, ext: string)
    requires NoPartNumber(stem)
    requires |ext| == 0 || !IsDigit(ext[0])
    ensures PartNumber(SegmentName(stem, index, ext)) == index
  {
    var p := Pad2(index);
    var tail := "_part" + p + ext;
    var name := stem + tail;
    assert SegmentName(stem, index, ext) == name;
    var j := |stem| + 1;
    assert name[j] == 'p' && name[j + 1] == 'a' && name[j + 2] == 'r' && name[j + 3] == 't';
    assert name[j + 4] == p[0];
    assert PartAt(name, j);
    forall k: nat | k < j
      ensures !PartAt(name, k)
    {
      NoPartBefore(stem, tail, k);
    }
    assert LeftmostPartAt(name, j);
    assert name[j + 4..j + 4 + |p|] == p;
    if |ext| > 0 {
      assert name[j + 4 + |p|] == ext[0];
    }
    DigitRunOfDigits(name, j + 4, p);
  }

  /** Round trip: `extract_part_number` reads back the index a segment name was
      built with, whenever the stem holds no `part<digit>` and the extension does
      not start with a digit. */
  lemma ExtractPartNumberOfSegmentName(stem: string, index: nat, ext: string)
    requires '/' !in stem && '/' !in ext
    requires NoPartNumber(stem)
    requires |ext| == 0 || !IsDigit(ext[0])
    ensures ExtractPartNumber(SegmentName(stem, index, ext)) == index
  {
    SegmentNameHasNoSeparator(stem, index, ext);
    PartNumberOfSegmentName(stem, index, ext);
  }

  // ---------------------------------------------------------------------------
  // extract_base_name: re.sub(r'_part\d+\.[^.]+$', '', basename)

  /** No dot at any index after `q`. */
  predicate NoDotAfter(s: string, q: nat) {
    forall i :: q < i < |s| ==> s[i] != '.'
  }

  /** The pattern `_part\d+\.[^.]+` starts at index `p` and reaches the end of `s`:
      after `_part`, a non-empty digit run, then a dot, then at least one
      character and no further dot. */
  predicate SuffixAt(s: string, p: nat) {
    && p + 5 <= |s|
    && s[p] == '_' && s[p + 1] == 'p' && s[p + 2] == 'a' && s[p + 3] == 'r' && s[p + 4] == 't'
    && var q := p + 5 + DigitRun(s, p + 5);
       && q > p + 5
       && q + 1 < |s|
       && s[q] == '.'
       && NoDotAfter(s, q)
  }

  /** The pattern can match at one index at most: its dot must be the last dot,
      and `_` cannot sit inside `part` or inside the digit run. */
  lemma SuffixAtUnique(s: string, p1: nat, p2: nat)
    requires SuffixAt(s, p1) && p1 < p2
    ensures !SuffixAt(s, p2)
  {
    var q1 := p1 + 5 + DigitRun(s, p1 + 5);
    if p2 < p1 + 5 {
      assert s[p2] != '_';
    } else if p2 < q1 {
      assert s[p1 + 5..q1][p2 - p1 - 5] == s[p2];
      assert IsDigit(s[p2]);
    } else if p2 == q1 {
      assert s[p2] == '.';
    } else if p2 + 5 <= |s| {
      var q2 := p2 + 5 + DigitRun(s, p2 + 5);
      assert q2 < |s| ==> s[q2] != '.';
    }
  }

  /** The leftmost index at or after `from` where the suffix pattern matches. */
  function FindSuffix(s: string, from: nat): (r: Option<nat>)
    ensures r.Some? ==> from <= r.value && SuffixAt(s, r.value)
    ensures r.None? ==> forall k: nat :: from <= k ==> !SuffixAt(s, k)
    decreases |s| - from
  {
    if from + 5 > |s| then None
    else if SuffixAt(s, from) then Some(from)
    else FindSuffix(s, from + 1)
  }

  /** A base name with a trailing `_part<digits>.<ext>` removed; a name without
      that ending is returned unchanged. */
  function StripPartSuffix(name: string): (r: string)
    ensures |r| <= |name| && r == name[..|r|]
    ensures r == name ==> forall p: nat :: !SuffixAt(name, p)
    ensures r != name ==> SuffixAt(name, |r|)
  {
    var found := FindSuffix(name, 0);
    if found.None? then name
    else
      var r := name[..found.value];
      assert |r| < |name| && SuffixAt(name, |r|);
      r
  }

  /** `extract_base_name`: the stripped base name of the path. */
  function ExtractBaseName(path: string): (r: string)
    ensures '/' !in r
  {
    var name := BaseName(path);
    var r := StripPartSuffix(name);
    assert forall i :: 0 <= i < |r| ==> r[i] == name[i];
    r
  }

  /** After the leading dot of a pathlib extension there is no other dot. */
  lemma NoDotAfterExtension(prefix: string, ext: string)
    requires IsExtension(ext)
    ensures NoDotAfter(prefix + ext, |prefix|)
  {
    var s := prefix + ext;
    forall i | |prefix| < i < |s| ensures s[i] != '.' {
      assert s[i] == ext[1..][i - |prefix| - 1];
    }
  }

  /** In a segment name the suffix pattern matches right after the stem. */
  lemma SuffixAtEndOfStem(stem: string, index: nat, ext: string)
    requires IsExtension(ext)
    ensures SuffixAt(SegmentName(stem, index, ext), |stem|)
  {
    var p := Pad2(index);
    var prefix := stem + "_part" + p;
    var name := prefix + ext;
    assert SegmentName(stem, index, ext) == name;
    var k := |stem| + 5;
    assert name == stem + "_part" + (p + ext);
    MarkerAt(stem, p + ext);
    assert name[k..k + |p|] == p;
    assert name[k + |p|] == '.';
    DigitRunOfDigits(name, k, p);
    NoDotAfterExtension(prefix, ext);
  }

  /** The characters of `_part` right after `stem`. */
  lemma MarkerAt(stem: string, tail: string)
    ensures var s := stem + "_part" + tail;
            && s[|stem|] == '_' && s[|stem| + 1] == 'p' && s[|stem| + 2] == 'a'
            && s[|stem| + 3] == 'r' && s[|stem| + 4] == 't'
  {
    var s := stem + "_part" + tail;
    assert s[|stem|..|stem| + 5] == "_part";
  }

  /** Stripping the part suffix from a segment name gives back the stem, for an
      extension in pathlib's form. */
  lemma StripPartSuffixOfSegmentName(stem: string, index: nat, ext: string)
    requires IsExtension(ext)
    ensures StripPartSuffix(SegmentName(stem, index, ext)) == stem
  {
    var name := SegmentName(stem, index, ext);
    SuffixAtEndOfStem(stem, index, ext);
    var r := StripPartSuffix(name);
    if |r| < |stem| {
      SuffixAtUnique(name, |r|, |stem|);
    } else if |r| > |stem| {
      SuffixAtUnique(name, |stem|, |r|);
    }
    assert name[..|stem|] == stem;
  }

  /** Round trip: `extract_base_name` of a segment name is the stem it was built from. */
  lemma ExtractBaseNameOfSegmentName(stem: string, index: nat, ext: string)
    requires '/' !in stem && '/' !in ext
    requires IsExtension(ext)
    ensures ExtractBaseName(SegmentName(stem, index, ext)) == stem
  {
    SegmentNameHasNoSeparator(stem, index, ext);
    StripPartSuffixOfSegmentName(stem, index, ext);
  }
}

=== FILE: partsort.dfy ===
/** The processing order of the transcription stage: Python's stable `sorted`
    with a key function (src/02-transcribe-audio.py:125 sorts by
    `extract_part_number`), written as an insertion sort. */
module PartSort {
  import opened PartNames

  /** Keys never decrease along `s`. */
  predicate SortedBy(key: string -> nat, s: seq<string>) {
    forall i, j :: 0 <= i < j < |s| ==> key(s[i]) <= key(s[j])
  }

  /** The tail of a sorted sequence is sorted and bounded below by its head. */
  lemma SortedTail(key: string -> nat, s: seq<string>)
    requires |s| > 0 && SortedBy(key, s)
    ensures SortedBy(key, s[1..])
    ensures forall i :: 0 <= i < |s[1..]| ==> key(s[0]) <= key(s[1..][i])
  {
    forall i, j | 0 <= i < j < |s[1..]| ensures key(s[1..][i]) <= key(s[1..][j]) {
      assert s[1..][i] == s[i + 1] && s[1..][j] == s[j + 1];
    }
    forall i | 0 <= i < |s[1..]| ensures key(s[0]) <= key(s[1..][i]) {
      assert s[1..][i] == s[i + 1];
    }
  }

  /** A sorted sequence stays sorted behind an element whose key bounds it below. */
  lemma SortedCons(key: string -> nat, x: string, t: seq<string>)
    requires SortedBy(key, t)
    requires forall i :: 0 <= i < |t| ==> key(x) <= key(t[i])
    ensures SortedBy(key, [x] + t)
  {
    forall i, j | 0 <= i < j < |[x] + t| ensures key(([x] + t)[i]) <= key(([x] + t)[j]) {
      assert ([x] + t)[j] == t[j - 1];
      if i > 0 {
        assert ([x] + t)[i] == t[i - 1];
      }
    }
  }

  /** The elements of `s` whose key is `k`, in their order in `s`. */
  function WithKey(key: string -> nat, s: seq<string>, k: nat): seq<string> {
    if |s| == 0 then []
    else (if key(s[0]) == k then [s[0]] else []) + WithKey(key, s[1..], k)
  }

  /** Inserts `x` in front of the first element whose key is not smaller, so
      that `x` precedes every element of `s` that ties with it. */
  function Insert(key: string -> nat, x: string, s: seq<string>): (r: seq<string>)
    requires SortedBy(key, s)
    ensures SortedBy(key, r)
    ensures multiset(r) == multiset(s) + multiset{x}
    ensures |r| == |s| + 1 && (r[0] == x || (|s| > 0 && r[0] == s[0]))
  {
    if |s| == 0 || key(x) <= key(s[0]) then
      [x] + s
    else
      SortedTail(key, s);
      var rest := Insert(key, x, s[1..]);
      assert key(s[0]) <= key(rest[0]);
      assert forall j :: 0 <= j < |rest| ==> key(rest[0]) <= key(rest[j]);
      SortedCons(key, s[0], rest);
      assert s == [s[0]] + s[1..];
      [s[0]] + rest
  }

  /** Inserting `x` adds it in front of its ties and leaves every other key's
      elements as they were. */
  lemma {:induction false} InsertKeepsTies(key: string -> nat, x: string, s: seq<string>)
    requires SortedBy(key, s)
    ensures forall k :: WithKey(key, Insert(key, x, s), k) == (if key(x) == k then [x] else []) + WithKey(key, s, k)
  {
    if |s| == 0 || key(x) <= key(s[0]) {
      forall k ensures WithKey(key, Insert(key, x, s), k) == (if key(x) == k then [x] else []) + WithKey(key, s, k) {
        WithKeyCons(key, x, s, k);
      }
    } else {
      SortedTail(key, s);
      var rest := Insert(key, x, s[1..]);
      InsertKeepsTies(key, x, s[1..]);
      assert s == [s[0]] + s[1..];
      forall k ensures WithKey(key, [s[0]] + rest, k) == (if key(x) == k then [x] else []) + WithKey(key, s, k) {
        WithKeyCons(key, s[0], rest, k);
        WithKeyCons(key, s[0], s[1..], k);
        if key(s[0]) == k {
          assert key(x) != k;
        }
      }
    }
  }

  /** The per-key sub-sequence of `[y] + t`. */
  lemma WithKeyCons(key: string -> nat, y: string, t: seq<string>, k: nat)
    ensures WithKey(key, [y] + t, k) == (if key(y) == k then [y] else []) + WithKey(key, t, k)
  {
    assert ([y] + t)[0] == y && ([y] + t)[1..] == t;
  }

  /** `sorted(s, key=key)`: ascending keys, the same elements, and elements with
      equal keys kept in their original order. */
  function SortBy(key: string -> nat, s: seq<string>): (r: seq<string>)
    ensures SortedBy(key, r)
    ensures multiset(r) == multiset(s)
    ensures forall k :: WithKey(key, r, k) == WithKey(key, s, k)
  {
    if |s| == 0 then []
    else
      assert s == [s[0]] + s[1..];
      InsertKeepsTies(key, s[0], SortBy(key, s[1..]));
      Insert(key, s[0], SortBy(key, s[1..]))
  }

  /** The processing order: ascending part numbers, ties (all names without a
      part number among them, at 0) in discovery order. */
  function SortByPart(files: seq<string>): seq<string> {
    SortBy(ExtractPartNumber, files)
  }

  /** The first element with key `k` in a sequence that starts with key `k` is its head. */
  lemma WithKeyOfHead(key: string -> nat, s: seq<string>)
    requires |s| > 0
    ensures WithKey(key, s, key(s[0])) == [s[0]] + WithKey(key, s[1..], key(s[0]))
  {
  }

  /** A key that occurs in `WithKey(key, s, k)` belongs to an element of `s`. */
  lemma {:induction false} WithKeyMember(key: string -> nat, s: seq<string>, k: nat)
    requires |WithKey(key, s, k)| > 0
    ensures exists i :: 0 <= i < |s| && key(s[i]) == k
    decreases |s|
  {
    if key(s[0]) != k {
      WithKeyMember(key, s[1..], k);
      var i :| 0 <= i < |s[1..]| && key(s[1..][i]) == k;
      assert s[i + 1] == s[1..][i];
    }
  }

  /** Removing the heads of two sequences with the same head keeps the
      per-key sub-sequences equal. */
  lemma {:induction false} WithKeyTails(key: string -> nat, a: seq<string>, b: seq<string>)
    requires |a| > 0 && |b| > 0 && a[0] == b[0]
    requires forall k :: WithKey(key, a, k) == WithKey(key, b, k)
    ensures forall k :: WithKey(key, a[1..], k) == WithKey(key, b[1..], k)
  {
    forall k ensures WithKey(key, a[1..], k) == WithKey(key, b[1..], k) {
      var head := if key(a[0]) == k then [a[0]] else [];
      var x := WithKey(key, a[1..], k);
      var y := WithKey(key, b[1..], k);
      assert head + x == head + y by {
        assert WithKey(key, a, k) == head + x;
        assert WithKey(key, b, k) == head + y;
      }
      assert x == (head + x)[|head|..];
      assert y == (head + y)[|head|..];
    }
  }

  /** Sequences with the same elements per key are both empty or both not. */
  lemma SameKeysSameEmptiness(key: string -> nat, a: seq<string>, b: seq<string>)
    requires forall k :: WithKey(key, a, k) == WithKey(key, b, k)
    ensures |a| == 0 <==> |b| == 0
  {
    if |a| > 0 {
      WithKeyOfHead(key, a);
      assert WithKey(key, b, key(a[0])) == WithKey(key, a, key(a[0]));
    }
    if |b| > 0 {
      WithKeyOfHead(key, b);
      assert WithKey(key, a, key(b[0])) == WithKey(key, b, key(b[0]));
    }
  }

  /** A stable sort has one possible result: two sorted sequences with the same
      elements per key, in the same order per key, are equal. */
  lemma {:induction false} SortedUnique(key: string -> nat, a: seq<string>, b: seq<string>)
    requires SortedBy(key, a) && SortedBy(key, b)
    requires forall k :: WithKey(key, a, k) == WithKey(key, b, k)
    ensures a == b
    decreases |a| + |b|
  {
    SameKeysSameEmptiness(key, a, b);
    if |a| > 0 {
      var ka := key(a[0]);
      var kb := key(b[0]);
      WithKeyOfHead(key, a);
      WithKeyOfHead(key, b);
      assert WithKey(key, a, ka) == WithKey(key, b, ka);
      assert WithKey(key, a, kb) == WithKey(key, b, kb);
      WithKeyMember(key, b, ka);
      WithKeyMember(key, a, kb);
      assert ka == kb;
      assert a[0] == b[0] by {
        assert WithKey(key, a, ka)[0] == a[0];
        assert WithKey(key, b, kb)[0] == b[0];
      }
      WithKeyTails(key, a, b);
      SortedTail(key, a);
      SortedTail(key, b);
      SortedUnique(key, a[1..], b[1..]);
      assert a == [a[0]] + a[1..] && b == [b[0]] + b[1..];
    }
  }

  /** Sorting an already sorted sequence changes nothing; in particular sorting
      is idempotent. */
  lemma SortByOfSorted(key: string -> nat, s: seq<string>)
    requires SortedBy(key, s)
    ensures SortBy(key, s) == s
  {
    SortedUnique(key, SortBy(key, s), s);
  }
}

=== FILE: paths.dfy ===
/** POSIX path-name helpers the two scripts rely on: `os.path.basename`,
    `os.path.join`, `os.path.splitext` and pathlib's `stem` / `suffix`. */
module Paths {
  import opened Base

  /** `os.path.basename`: everything after the last `/`. */
  function BaseName(p: string): (r: string)
    ensures '/' !in r
    ensures |r| <= |p| && r == p[|p| - |r|..]
    ensures |r| < |p| ==> p[|p| - |r| - 1] == '/'
  {
    if |p| == 0 || p[|p| - 1] == '/' then ""
    else
      var r := BaseName(p[..|p| - 1]) + [p[|p| - 1]];
      assert p[..|p| - 1][|p| - 1 - (|r| - 1)..] + [p[|p| - 1]] == p[|p| - |r|..];
      r
  }

  /** `os.path.join(dir, name)` for a relative `name`. */
  function PathJoin(dir: string, name: string): (r: string)
    ensures |name| > 0 && name[0] == '/' ==> r == name
  {
    if |name| > 0 && name[0] == '/' then name
    else if |dir| == 0 || dir[|dir| - 1] == '/' then dir + name
    else dir + "/" + name
  }

  /** A name without separators that follows a separator (or nothing) is the base name. */
  lemma {:induction false} BaseNameAfterSeparator(q: string, name: string)
    requires |q| == 0 || q[|q| - 1] == '/'
    requires '/' !in name
    ensures BaseName(q + name) == name
  {
    var p := q + name;
    if |name| > 0 {
      var last := |name| - 1;
      var init := name[..last];
      assert p[|p| - 1] == name[last] && name[last] != '/';
      assert p[..|p| - 1] == q + init;
      assert '/' !in init by {
        assert forall i :: 0 <= i < |init| ==> init[i] == name[i];
      }
      BaseNameAfterSeparator(q, init);
      assert BaseName(p) == BaseName(q + init) + [name[last]];
      assert init + [name[last]] == name;
    } else {
      assert p == q;
    }
  }

  /** The base name of a joined path is the joined file name. */
  lemma BaseNameOfJoin(dir: string, name: string)
    requires '/' !in name
    ensures BaseName(PathJoin(dir, name)) == name
  {
    if |dir| == 0 || dir[|dir| - 1] == '/' {
      BaseNameAfterSeparator(dir, name);
    } else {
      assert dir + "/" + name == (dir + "/") + name;
      BaseNameAfterSeparator(dir + "/", name);
    }
  }

  /** Index of the last occurrence of `c` in `s`, scanning from the end. */
  function LastIndexOf(s: string, c: char): (r: Option<nat>)
    ensures r.None? <==> c !in s
    ensures r.Some? ==> r.value < |s| && s[r.value] == c
    ensures r.Some? ==> forall i :: r.value < i < |s| ==> s[i] != c
  {
    if |s| == 0 then None
    else if s[|s| - 1] == c then Some(|s| - 1)
    else
      assert s == s[..|s| - 1] + [s[|s| - 1]];
      LastIndexOf(s[..|s| - 1], c)
  }

  /** A file extension as pathlib reports it: a dot followed by at least one
      character, none of them a dot. */
  predicate IsExtension(e: string) {
    |e| >= 2 && e[0] == '.' && '.' !in e[1..]
  }

  /** pathlib's `suffix` of a file name: from the last dot on, provided that dot
      is neither the first nor the last character; otherwise empty. */
  function Suffix(name: string): (r: string)
    ensures r == "" || IsExtension(r)
    ensures |r| <= |name| && r == name[|name| - |r|..]
  {
    match LastIndexOf(name, '.')
    case Some(i) =>
      if 0 < i < |name| - 1 then
        assert name[i..][1..] == name[i + 1..];
        name[i..]
      else ""
    case None => ""
  }

  /** pathlib's `stem`: the file name without its `Suffix`. */
  function Stem(name: string): (r: string)
    ensures r + Suffix(name) == name
    ensures '/' !in name ==> '/' !in r
  {
    name[..|name| - |Suffix(name)|]
  }

  /** A non-empty stem followed by an extension splits back into the two. */
  lemma SuffixOfStemAndExtension(stem: string, ext: string)
    requires |stem| > 0 && IsExtension(ext)
    ensures Suffix(stem + ext) == ext
    ensures Stem(stem + ext) == stem
  {
    var name := stem + ext;
    var d := |stem|;
    assert name[d] == '.';
    assert forall i :: d < i < |name| ==> name[i] == ext[1..][i - d - 1];
    var last := LastIndexOf(name, '.');
    assert last == Some(d);
    assert name[d..] == ext;
  }

  /** True when some character before index `d` is not a dot. */
  predicate HasNonDotBefore(s: string, d: nat)
    requires d <= |s|
  {
    exists j | 0 <= j < d :: s[j] != '.'
  }

  /** `os.path.splitext(name)[0]` for a name without separators: the last dot
      starts the extension unless only dots precede it. */
  function SplitExtRoot(name: string): (r: string)
    ensures |r| <= |name| && r == name[..|r|]
    ensures r != name ==> name[|r|] == '.' && '.' !in name[|r| + 1..] && HasNonDotBefore(name, |r|)
    ensures r == name ==> forall d :: 0 <= d < |name| && name[d] == '.' && '.' !in name[d + 1..] ==> !HasNonDotBefore(name, d)
  {
    match LastIndexOf(name, '.')
    case Some(d) =>
      if HasNonDotBefore(name, d) then
        assert forall i :: d + 1 <= i < |name| ==> name[i] != '.';
        name[..d]
      else
        assert forall e :: 0 <= e < |name| && name[e] == '.' && '.' !in name[e + 1..] ==> e == d;
        name
    case None => name
  }
}

=== FILE: segmenter.dfy ===
/** Planning of a media split: extension classification, segment directory and
    file naming, and the partition of `[0, duration]` into equal slices, one
    cut request per slice (src/01-split-audio.py, `split_media_file`). */
module Segmenter {
  import opened Base
  import opened Ascii
  import opened Paths

  datatype MediaClass = Video | Audio

  const VideoExtensions: seq<string> := [".mp4", ".avi", ".mov", ".mkv", ".wmv"]
  const AudioExtensions: seq<string> := [".mp3", ".wav", ".aac", ".ogg", ".flac"]

  /** The two whitelists share no extension, so a file is never both. */
  lemma ExtensionListsDisjoint(ext: string)
    ensures !(ext in VideoExtensions && ext in AudioExtensions)
  {
  }

  /** Video when the extension is on the video list, audio when it is on the
      audio list, unsupported otherwise. */
  function Classify(ext: string): (r: Option<MediaClass>)
    ensures r == Some(Video) <==> ext in VideoExtensions
    ensures r == Some(Audio) <==> ext in AudioExtensions
    ensures r == None <==> ext !in VideoExtensions && ext !in AudioExtensions
  {
    if ext in VideoExtensions then Some(Video)
    else if ext in AudioExtensions then Some(Audio)
    else None
  }

  /** pathlib's stem of the file the path names. */
  function FileStem(path: string): string {
    Stem(BaseName(path))
  }

  /** The lower-cased pathlib suffix of the file the path names. */
  function FileExt(path: string): (r: string)
    ensures r == "" || IsExtension(r)
    ensures forall i :: 0 <= i < |r| ==> !IsUpper(r[i])
  {
    var e := Suffix(BaseName(path));
    LowerKeepsExtension(e);
    Lower(e)
  }

  /** Lower-casing keeps a pathlib extension an extension. */
  lemma LowerKeepsExtension(e: string)
    requires e == "" || IsExtension(e)
    ensures Lower(e) == "" || IsExtension(Lower(e))
  {
    if e != "" {
      var r := Lower(e);
      assert r[0] == '.';
      assert forall i :: 1 <= i < |r| ==> r[i] != '.' by {
        assert forall i :: 1 <= i < |e| ==> e[i] == e[1..][i - 1];
      }
      assert forall i :: 0 <= i < |r[1..]| ==> r[1..][i] == r[i + 1];
    }
  }

  /** `{stem}_segments`: the sub-directory that receives one file's segments. */
  function SegmentDirName(stem: string): string {
    stem + "_segments"
  }

  /** The segment directory is determined by the stem alone, and different stems
      get different directories. */
  lemma SegmentDirNameInjective(s1: string, s2: string)
    ensures SegmentDirName(s1) == SegmentDirName(s2) <==> s1 == s2
  {
    if SegmentDirName(s1) == SegmentDirName(s2) {
      assert s1 == SegmentDirName(s1)[..|s1|];
    }
  }

  /** `{stem}_part{index:02d}{ext}`: the file name of the segment with 1-based `index`. */
  function SegmentName(stem: string, index: nat, ext: string): string {
    stem + "_part" + Pad2(index) + ext
  }

  /** Distinct indices give distinct segment names. */
  lemma SegmentNameInjective(stem: string, i: nat, j: nat, ext: string)
    requires SegmentName(stem, i, ext) == SegmentName(stem, j, ext)
    ensures i == j
  {
    var a := stem + "_part";
    var n := SegmentName(stem, i, ext);
    assert n == a + Pad2(i) + ext;
    assert n == a + Pad2(j) + ext;
    assert |Pad2(i)| == |Pad2(j)|;
    assert Pad2(i) == n[|a|..|a| + |Pad2(i)|];
    assert Pad2(j) == n[|a|..|a| + |Pad2(j)|];
    Pad2Injective(i, j);
  }

  /** One requested extraction: `[start, end)` in seconds into `outputName`. */
  datatype Cut = Cut(start: real, end: real, outputName: string)

  /** A cut request together with whether the cutting utility reported success. */
  datatype CutReport = CutReport(cut: Cut, succeeded: bool)

  datatype SplitOutcome =
    | UnsupportedFormat(ext: string)
      /** The segment directory was created, then the probe gave no usable duration. */
    | ProbeFailed(segmentDir: string)
      /** A segment count of zero: the division by it raises before any cut. */
    | ZeroSegments(segmentDir: string)
    | Split(segmentDir: string, mediaClass: MediaClass, duration: real, reports: seq<CutReport>)

  /** Python truthiness of the probe's answer: `None` and `0.0` are falsy. */
  predicate HasDuration(probe: Option<real>) {
    probe.Some? && probe.value != 0.0
  }

  function Min(a: real, b: real): real {
    if a <= b then a else b
  }

  function CutsOf(reports: seq<CutReport>): (cuts: seq<Cut>)
    ensures |cuts| == |reports|
    ensures forall i :: 0 <= i < |reports| ==> cuts[i] == reports[i].cut
  {
    seq(|reports|, i requires 0 <= i < |reports| => reports[i].cut)
  }

  /** The cuts tile `[0, d]`: the first starts at 0, each ends where the next
      starts, every one is a non-empty interval inside `[0, d]`, the last ends at `d`. */
  predicate IsPartition(cuts: seq<Cut>, d: real) {
    && |cuts| > 0
    && cuts[0].start == 0.0
    && cuts[|cuts| - 1].end == d
    && (forall i :: 0 <= i < |cuts| - 1 ==> cuts[i].end == cuts[i + 1].start)
    && (forall i :: 0 <= i < |cuts| ==> 0.0 <= cuts[i].start < cuts[i].end <= d)
  }

  /** Every cut spans exactly `len` seconds. */
  predicate EqualLengths(cuts: seq<Cut>, len: real) {
    forall i :: 0 <= i < |cuts| ==> cuts[i].end - cuts[i].start == len
  }

  /** Slice `j` of `n` slices of `seg == d / n` seconds lies inside `[0, d]`,
      is non-empty, and only the last one reaches `d`. */
  lemma SliceBounds(j: nat, n: nat, d: real, seg: real)
    requires j < n && d > 0.0 && seg == d / n as real
    ensures 0.0 <= j as real * seg
    ensures j as real * seg < (j + 1) as real * seg <= d
    ensures (j + 1) as real * seg == d <==> j + 1 == n
  {
    assert seg > 0.0;
    assert n as real * seg == d;
    assert (j + 1) as real * seg == j as real * seg + seg;
    assert d - (j + 1) as real * seg == (n - j - 1) as real * seg;
    assert (n - j - 1) as real * seg >= 0.0;
    if j + 1 != n {
      assert (n - j - 1) as real * seg >= seg;
    }
  }

  /** Cut `j` runs from `j * seg` to `min((j + 1) * seg, d)`, as the loop computes it. */
  predicate SlicedEvenly(cuts: seq<Cut>, d: real, seg: real) {
    forall j :: 0 <= j < |cuts| ==>
      && cuts[j].start == j as real * seg
      && cuts[j].end == Min((j + 1) as real * seg, d)
  }

  /** Cut `j` of `n` evenly computed slices is exactly slice `j`: the clamp
      to `d` never shortens it. */
  lemma SliceAt(cuts: seq<Cut>, d: real, n: nat, j: nat)
    requires j < n && d > 0.0 && |cuts| == n
    requires SlicedEvenly(cuts, d, d / n as real)
    ensures cuts[j].start == j as real * (d / n as real)
    ensures cuts[j].end == (j + 1) as real * (d / n as real)
    ensures 0.0 <= cuts[j].start < cuts[j].end <= d
    ensures cuts[j].end - cuts[j].start == d / n as real
  {
    SliceBounds(j, n, d, d / n as real);
  }

  /** Each evenly computed slice is a non-empty interval inside `[0, d]` of
      `d / n` seconds. */
  lemma SlicesInside(cuts: seq<Cut>, d: real, n: nat)
    requires n > 0 && d > 0.0 && |cuts| == n
    requires SlicedEvenly(cuts, d, d / n as real)
    ensures forall j :: 0 <= j < n ==> 0.0 <= cuts[j].start < cuts[j].end <= d
    ensures EqualLengths(cuts, d / n as real)
  {
    forall j | 0 <= j < n
      ensures 0.0 <= cuts[j].start < cuts[j].end <= d
      ensures cuts[j].end - cuts[j].start == d / n as real
    {
      SliceAt(cuts, d, n, j);
    }
  }

  /** Each evenly computed slice ends where the next one starts. */
  lemma SlicesContiguous(cuts: seq<Cut>, d: real, n: nat)
    requires n > 0 && d > 0.0 && |cuts| == n
    requires SlicedEvenly(cuts, d, d / n as real)
    ensures forall j :: 0 <= j < n - 1 ==> cuts[j].end == cuts[j + 1].start
  {
    forall j | 0 <= j < n - 1
      ensures cuts[j].end == cuts[j + 1].start
    {
      SliceAt(cuts, d, n, j);
      SliceAt(cuts, d, n, j + 1);
    }
  }

  /** For a positive duration, `n` evenly computed slices tile `[0, d]` in
      pieces of `d / n` seconds. */
  lemma SlicesPartition(cuts: seq<Cut>, d: real, n: nat)
    requires n > 0 && d > 0.0 && |cuts| == n
    requires SlicedEvenly(cuts, d, d / n as real)
    ensures IsPartition(cuts, d)
    ensures EqualLengths(cuts, d / n as real)
  {
    SlicesInside(cuts, d, n);
    SlicesContiguous(cuts, d, n);
    SliceAt(cuts, d, n, 0);
    SliceAt(cuts, d, n, n - 1);
    SliceBounds(n - 1, n, d, d / n as real);
  }

  /** The cut the loop requests for 0-based index `j`, slices being `seg` seconds long. */
  function PlannedCut(stem: string, ext: string, d: real, seg: real, j: nat): Cut {
    Cut(j as real * seg, Min((j + 1) as real * seg, d), SegmentName(stem, j + 1, ext))
  }

  /** The reports of the first `count` cut requests, in index order. */
  function PlannedReports(stem: string, ext: string, d: real, seg: real, cutSucceeds: nat -> bool, count: nat): (r: seq<CutReport>)
    ensures |r| == count
  {
    if count == 0 then []
    else PlannedReports(stem, ext, d, seg, cutSucceeds, count - 1) + [CutReport(PlannedCut(stem, ext, d, seg, count - 1), cutSucceeds(count - 1))]
  }

  /** One more loop round appends the report for the next index. */
  lemma PlannedReportsStep(stem: string, ext: string, d: real, seg: real, cutSucceeds: nat -> bool, k: nat)
    ensures PlannedReports(stem, ext, d, seg, cutSucceeds, k + 1)
         == PlannedReports(stem, ext, d, seg, cutSucceeds, k) + [CutReport(PlannedCut(stem, ext, d, seg, k), cutSucceeds(k))]
  {
  }

  /** Report `j` of the plan is the cut for slice `j` with its own outcome, whatever the other outcomes. */
  lemma {:induction false} PlannedReportAt(stem: string, ext: string, d: real, seg: real, cutSucceeds: nat -> bool, count: nat, j: nat)
    requires j < count
    ensures PlannedReports(stem, ext, d, seg, cutSucceeds, count)[j] == CutReport(PlannedCut(stem, ext, d, seg, j), cutSucceeds(j))
  {
    if j < count - 1 {
      PlannedReportAt(stem, ext, d, seg, cutSucceeds, count - 1, j);
    }
  }

  /** What the planned reports promise: one report per slice, each named after
      its 1-based index and carrying its own cut outcome, and for a positive
      duration a partition of `[0, d]` into slices of `d / n` seconds. */
  lemma PlannedReportsProperties(stem: string, ext: string, d: real, n: nat, cutSucceeds: nat -> bool)
    requires n > 0
    ensures var r := PlannedReports(stem, ext, d, d / n as real, cutSucceeds, n);
      && (forall i :: 0 <= i < n ==>
            && r[i].cut.outputName == SegmentName(stem, i + 1, ext)
            && r[i].succeeded == cutSucceeds(i))
      && (d > 0.0 ==> IsPartition(CutsOf(r), d) && EqualLengths(CutsOf(r), d / n as real))
  {
    var seg := d / n as real;
    var r := PlannedReports(stem, ext, d, seg, cutSucceeds, n);
    forall j | 0 <= j < n
      ensures r[j] == CutReport(PlannedCut(stem, ext, d, seg, j), cutSucceeds(j))
    {
      PlannedReportAt(stem, ext, d, seg, cutSucceeds, n, j);
    }
    if d > 0.0 {
      var cuts := CutsOf(r);
      assert SlicedEvenly(cuts, d, seg);
      SlicesPartition(cuts, d, n);
    }
  }

  /** The cutting loop of `split_media_file`: one cut request per slice, in
      index order, whatever became of the earlier cuts; a negative count
      requests nothing. */
  method CutSlices(stem: string, ext: string, d: real, numSegments: int, cutSucceeds: nat -> bool)
    returns (reports: seq<CutReport>)
    requires numSegments != 0
    ensures |reports| == (if numSegments > 0 then numSegments else 0)
    ensures forall i :: 0 <= i < |reports| ==>
              && reports[i].cut.outputName == SegmentName(stem, i + 1, ext)
              && reports[i].succeeded == cutSucceeds(i)
    ensures d > 0.0 && numSegments > 0 ==>
              && IsPartition(CutsOf(reports), d)
              && EqualLengths(CutsOf(reports), d / numSegments as real)
  {
    var segmentDuration := d / numSegments as real;
    reports := [];
    var i := 0;
    while i < numSegments
      invariant 0 <= i && (numSegments > 0 ==> i <= numSegments) && (numSegments < 0 ==> i == 0)
      invariant reports == PlannedReports(stem, ext, d, segmentDuration, cutSucceeds, i)
    {
      var cut := PlannedCut(stem, ext, d, segmentDuration, i);
      PlannedReportsStep(stem, ext, d, segmentDuration, cutSucceeds, i);
      reports := reports + [CutReport(cut, cutSucceeds(i))];
      i := i + 1;
    }
    if numSegments > 0 {
      PlannedReportsProperties(stem, ext, d, numSegments, cutSucceeds);
    }
  }

  /** `split_media_file` with the probe's answer and each cut's success given as
      inputs: classify the lower-cased suffix, name the segment directory, stop
      when the duration is missing or zero or the count is zero, then run the
      cutting loop. */
  method SplitMediaFile(path: string, probe: Option<real>, numSegments: int, cutSucceeds: nat -> bool)
    returns (out: SplitOutcome)
    ensures out.UnsupportedFormat? <==> Classify(FileExt(path)).None?
    ensures out.UnsupportedFormat? ==> out.ext == FileExt(path)
    ensures !out.UnsupportedFormat? ==> out.segmentDir == SegmentDirName(FileStem(path))
    ensures out.ProbeFailed? <==> Classify(FileExt(path)).Some? && !HasDuration(probe)
    ensures out.ZeroSegments? <==> Classify(FileExt(path)).Some? && HasDuration(probe) && numSegments == 0
    ensures out.Split? ==> Classify(FileExt(path)) == Some(out.mediaClass) && probe == Some(out.duration)
    ensures out.Split? ==> |out.reports| == (if numSegments > 0 then numSegments else 0)
    ensures out.Split? ==> forall i :: 0 <= i < |out.reports| ==>
              && out.reports[i].cut.outputName == SegmentName(FileStem(path), i + 1, FileExt(path))
              && out.reports[i].succeeded == cutSucceeds(i)
    ensures out.Split? && out.duration > 0.0 && numSegments > 0 ==>
              && IsPartition(CutsOf(out.reports), out.duration)
              && EqualLengths(CutsOf(out.reports), out.duration / numSegments as real)
  {
    var stem := FileStem(path);
    var ext := FileExt(path);
    var mediaClass := Classify(ext);
    if mediaClass.None? {
      return UnsupportedFormat(ext);
    }
    var dir := SegmentDirName(stem);
    if !HasDuration(probe) {
      return ProbeFailed(dir);
    }
    if numSegments == 0 {
      return ZeroSegments(dir);
    }
    var reports := CutSlices(stem, ext, probe.value, numSegments, cutSucceeds);
    out := Split(dir, mediaClass.value, probe.value, reports);
  }

  /** A file `stem + ext` in any directory has stem `stem` and, lower-cased,
      extension `ext`; so its segments are named after exactly those parts. */
  lemma FileStemAndExt(dir: string, stem: string, ext: string)
    requires |stem| > 0 && '/' !in stem
    requires IsExtension(ext) && '/' !in ext
    ensures FileStem(PathJoin(dir, stem + ext)) == stem
    ensures FileExt(PathJoin(dir, stem + ext)) == Lower(ext)
  {
    var name := stem + ext;
    assert '/' !in name by {
      assert forall i :: 0 <= i < |name| ==> name[i] == (if i < |stem| then stem[i] else ext[i - |stem|]);
    }
    BaseNameOfJoin(dir, name);
    SuffixOfStemAndExtension(stem, ext);
  }
}

=== FILE: transcription.dfy ===
/** The transcription client (src/02-transcribe-audio.py, `transcribe_audio`):
    the placeholder branch is modelled exactly; the HTTP exchange is an oracle. */
module Transcription {
  import opened Base
  import opened Paths

  /** A field of a decoded response other than `text`, kept opaque. */
  datatype Field = Field(name: string, value: string)

  /** A decoded service response (or cached JSON object): its optional string
      `text` field and the remaining fields. */
  datatype Payload = Payload(text: Option<string>, others: seq<Field>)

  /** Python truthiness of a decoded object: only the empty object is falsy. */
  predicate IsTruthy(p: Payload) {
    p.text.Some? || |p.others| > 0
  }

  /** `result.get("text", "")` */
  function TextOf(p: Payload): string {
    p.text.GetOr("")
  }

  /** The client's environment: whether the API key is still the placeholder,
      which paths exist, and the live service's answer to the `call`-th request
      for a path (`None` for a non-200 status). */
  datatype Service = Service(
    placeholderKey: bool,
    fileExists: string -> bool,
    respond: (nat, string) -> Option<Payload>)

  const DummyLead: string := "This is a dummy transcription for "
  const DummyTail: string := ". Replace AZURE_OPENAI_API_KEY in .env with your actual key."

  /** `sub` occurs in `s` starting at index `i`. */
  predicate OccursAt(s: string, sub: string, i: nat) {
    i + |sub| <= |s| && s[i..i + |sub|] == sub
  }

  ghost predicate Contains(s: string, sub: string) {
    exists i: nat :: OccursAt(s, sub, i)
  }

  /** The synthetic result of placeholder mode: a non-empty object whose text
      names the file. */
  function DummyPayload(path: string): (p: Payload)
    ensures IsTruthy(p)
    ensures Contains(TextOf(p), BaseName(path))
  {
    var name := BaseName(path);
    var text := DummyLead + name + DummyTail;
    assert OccursAt(text, name, |DummyLead|) by {
      assert text[|DummyLead|..|DummyLead| + |name|] == name;
    }
    Payload(Some(text), [])
  }

  /** `transcribe_audio`: with the placeholder key, or for a path that does not
      exist, the synthetic result; otherwise whatever the service answers. */
  function TranscribeAudio(svc: Service, path: string, call: nat): (r: Option<Payload>)
    ensures svc.placeholderKey || !svc.fileExists(path) ==>
              r.Some? && IsTruthy(r.value) && Contains(TextOf(r.value), BaseName(path))
    ensures r.None? ==> !svc.placeholderKey && svc.fileExists(path)
    ensures !svc.placeholderKey && svc.fileExists(path) ==> r == svc.respond(call, path)
  {
    if svc.placeholderKey || !svc.fileExists(path) then Some(DummyPayload(path))
    else svc.respond(call, path)
  }
}
